=== FILE: README.md ===
# zeus-stream capability layer in Dafny

This project models the capability layer of the PHP library zeus-stream: the
objects that wrap an open PHP stream resource, work out from its open mode and
metadata whether it may be read, written, sought and kept persistent, and gate
every operation on those capabilities. The library holds several revisions of
one design, and the model keeps each revision's rules apart:

- **The `Stream` revision** (`Streams.Stream`, file `stream.dfy`). It keeps four
  boolean flags plus `local` next to the handle. `StreamTrait` adds `detach`,
  `eol`, `getSize`, `rewind`, `__toString`, `writeLine` and the two copy loops of
  `writeFrom`. In this revision `readLine` appends the terminator only to a
  truthy line, and the budget loop of `writeFrom` is lowered by the bytes it
  actually read.
- **The Readable / Writable / Seekable subclasses** of `Stream`. They appear as
  the `StreamClass` tag, and their constructor checks are part of `Stream.New`.
  They use `ReadTrait` (`read_trait.dfy`), `WriteTrait` (`write_trait.dfy`) and
  the cursor methods of `Seekable` (`seekable.dfy`). None of these looks at the
  flags: a failing primitive raises (under the error handler described below),
  `readLine` always appends the terminator,
  and `copyWithLimit` lowers its budget by the length it requested.
- **The `StreamWrapper` revision** (`Wrapper.StreamWrapper`, file
  `stream_wrapper.dfy`). The flags live in one bit mask, modelled as a set
  together with the proof that testing one bit of the sum tests membership.
  The static `factory` picks a variant in a fixed order: seekable, read-write,
  readable, writable. `WritableStreamTrait` (`writable_stream_trait.dfy`) and
  `SeekableStream` (`seekable_stream.dfy`) act on the wrapper's handle.
- **The line iterators** of both revisions (`iterators.dfy`). Each is a class
  whose `current()` reads a line and counts it. Its `rewind()` moves the cursor
  back only where the class says so.

The raw resource is `RawHandle.Handle` (`raw_handle.dfy`), an in-memory byte
string with a cursor. Its mode, resource type, seekable and local bits, and an
optional capacity are fixed when it is created. The capacity makes short and
empty writes possible. Each PHP primitive the wrappers call is a method on the
handle, specified by a function on a `Buf`: the bytes, the cursor and the
end-of-file indicator that `feof` reports. `fread`, `fwrite`, `fseek`,
`ftruncate`, `stream_get_line`, `stream_get_contents` and `fclose` follow
PHP's memory streams:

- the indicator is set by an `fread` that asks for more than is left, by a
  `stream_get_line` that runs into the end and by `stream_get_contents`; it
  stays set until a successful `fseek` clears it. So `feof` is false while
  the cursor stands at the end until some read has tried to go past it;
- `stream_get_line($h, 0, $eol)` looks for the terminator only within the
  next 8192 bytes (`LINE_MAX`, PHP's chunk size). Without one there it
  returns those 8192 bytes, or the unterminated rest, setting the indicator;
- `fwrite` of "" returns 0 and touches nothing, even on a handle not opened
  for writing;
- a seek target outside the bytes fails and leaves the handle as it was.

A primitive that returns PHP `false` is
`None`, and a PHP exception is an `Err` of `Wrappers.Error`. The layer's own
exceptions keep the class and message of the source. `IoFailure(call)` stands
for the exception a trait method raises when the primitive `call` fails
(`Zeus\Stream\Read\Exception` in `ReadTrait`); it names the primitive, and
PHP's diagnostic message, which becomes the exception's message, is not
modelled.

PHP reports a failing primitive with a warning or notice and a `false`
result. The repository's tests install an error handler
(`test/bootstrap.php:5-7`) that turns every such diagnostic into an
`ErrorException`, and the traits are written for it: they catch that
exception and rethrow it as their own. The model takes the two readings
where each class's code is written for it. The trait methods (`ReadTrait`, and
the copy passes of `WriteTrait`) follow the handler: a failing read is an
`Err`. `Stream`'s own methods, which catch nothing, follow PHP without a
handler: the primitive's `false` is returned. So does the constructors' mode
rule (`Capabilities.ModeFlags`). "## Left out" names, member by member, what
PHP does under the other reading.

The copy loops are specified by recursive functions in `CopySpec`
(`copy_spec.dfy`), one call per pass. The imperative loops of `Streams` and
`TraitCopy` are proved equal to them through their loop invariants. Lemmas
then show what the functions compute: from a readable source into a sink that
takes every byte, the copy moves exactly the rest of the source or
min(budget, rest) bytes. It reports that count, the sink ends as a single
`fwrite` of those bytes would leave it, and the source reports its end once a
read has asked for more than was left. The loops stop on `feof`, so the
unbounded ones always end with one pass that finds nothing left. The test case's assertions are
methods and lemmas in `Scenarios` (`scenarios.dfy`).

Where the sources disagree with each other or with their tests:

- `src/Seek/SeekableStreamIterator.php:29` calls `cursorBegin()`, which
  `SeekableStream` does not define; it names that method `seekBegin()`. Here
  the model departs from the code: it takes `seekBegin()`, the evident
  intent, where PHP would fail with a call to an undefined method.
- `test/StreamTest.php:104-107` expects `Zeus\Stream\Write\Exception` when
  writing to a stream opened for reading. That stream is a plain `Stream`
  from `Stream::open`, and `src/Stream.php:203-205` raises a
  `RuntimeException`. `Scenarios.WriteToReader` states the code's exception.
- The `Seekable` constructor's refusal message is "The stream isn't a local
  one" (`src/Seek/Seekable.php:40`), although it tests the seekable flag. The
  model keeps the message and the test.
- `ReadTrait`, `WriteTrait` and `Seekable` reach the handle as
  `$this->resource` (`src/Read/ReadTrait.php:24`, `src/Write/WriteTrait.php:26`,
  `src/Seek/Seekable.php:27`), but `Stream` declares only `$stream`
  (`src/StreamTrait.php:52`). The property is undefined, so PHP raises a notice
  and passes null to `fread`, `fwrite` and `fseek`. Under the error handler of
  `test/bootstrap.php:5-7` the notice is an `ErrorException`, which `write`
  turns into `Zeus\Stream\Write\Exception`: `new Temp()` already fails in its
  own `write($data)` (`src/Temp.php:24`), so every test of
  `test/StreamTest.php` errors in `setUp` (line 20). Here the model departs
  from the code: the trait methods act on the stream's handle, the evident
  intent. `Scenarios.WriteThenReadFromStart`, `Scenarios.WriteLineThenReadBack`
  and `Scenarios.WriteThenGetLength` state that intended behaviour, not what
  the code as written does.

## Model

| member | source | states |
|---|---|---|
| Capabilities.FlagBitsAreDistinctPowersOfTwo | src/StreamWrapper.php:22-40 | The four flag constants are 1, 2, 4 and 8, and different flags have different bits. |
| Capabilities.MaskTestsMembership | src/StreamWrapper.php:213-243 | Testing a flag's bit in the sum of a flag set's bits holds exactly when that flag is in the set. |
| Capabilities.ModeFlagsCases | src/StreamWrapper.php:134-146 | The mode yields READABLE or WRITABLE, never neither and nothing else. Both come exactly when the second character is '+', READABLE alone exactly for a leading 'r' without it, and WRITABLE alone in every other case. |
| Capabilities.ReadableFlagIsSound | src/Stream.php:68-78 | A mode that earns READABLE is one the system opens for reading. |
| Capabilities.ModeFlagsMissLatePlus | src/Stream.php:68-78 | The pattern sees '+' only in second place: "rb+" is writable to the system but gets READABLE only, and "c+" is readable but gets WRITABLE only. |
| Capabilities.DeriveFlagsSpec | src/StreamWrapper.php:134-153 | PERSISTENT iff the resource type contains "persistent" in any letter case; SEEKABLE iff the metadata says seekable; READABLE and WRITABLE as the mode gives them, at least one always. |
| Capabilities.BinaryModeSpec | src/Stream.php:33-35 | `open`'s mode ends in 'b'. It is the mode itself exactly when that already ends in 'b', else the mode plus "b", and applying the rule twice equals applying it once. |
| Capabilities.BinaryModeKeepsCapabilities | src/Stream.php:33-39 | The 'b' suffix changes neither the derived flags nor what the system grants. |
| Capabilities.SelectPrecedence | src/StreamWrapper.php:102-113 | `factory` builds the variant of the first entry of its ordered list (SeekableStream needing SEEKABLE, ReadWriteStream needing READABLE and WRITABLE, ReadableStream needing READABLE, WritableStream needing nothing) whose flags the stream has; some entry always fits. |
| Capabilities.FirstFit | src/StreamWrapper.php:102-113 | The first-match search over an ordered list: the index it finds fits the flags, and no entry before it does; it is the list's length only when none fits. |
| Capabilities.SelectIsAdmitted | src/StreamWrapper.php:102-113 | The variant `factory` picks for a resource passes that variant's constructor check; the fallback branch has WRITABLE. |
| Php.ContainsFrom | src/StreamWrapper.php:148-150 | The case-blind search finds the needle iff it occurs at some offset from the start point on. |
| LineRules.WithEolSpec | src/StreamTrait.php:262-270 | `writeLine`'s text ends with the terminator. It is the line unchanged iff the line already ends so, else line + terminator, and the rule is idempotent. |
| RawHandle.LineEnd | src/Stream.php:171 | `stream_get_line($h, 0, $eol)` looks for the terminator within the next 8192 bytes: the one it finds lies wholly inside that window, and no terminator occurs before it there; an empty terminator is never found. |
| RawHandle.GetLineSplitsAtFirstEol | src/Stream.php:171 | The line `stream_get_line` hands out is the bytes it consumed less the terminator when it found one; otherwise the line is the consumed 8192 bytes, or the whole rest with the end-of-file indicator set. |
| RawHandle.FetchedLineHoldsNoEol | src/Read/ReadTrait.php:42 | The fetched line contains no terminator. |
| LineRules.StreamLineSpec | src/Stream.php:170-177 | Stream's `readLine` gives false exactly at the end. Otherwise, against the bytes consumed: with a terminator found, the consumed bytes, less the terminator for a PHP-falsy line; with none found (an 8192-byte chunk, or the rest, which sets the end-of-file indicator), the consumed bytes plus a terminator the stream never held, unless the line is falsy. |
| LineRules.StreamLineDropsEolOfFalsyLine | src/Stream.php:171-174 | On "0\nx" Stream's `readLine` consumes "0\n" but returns "0": a falsy line loses its terminator. |
| LineRules.TraitLineIsConsumedLine | src/Read/ReadTrait.php:39-44 | ReadTrait's line always ends with the terminator. It is the bytes consumed when a terminator was found; otherwise the consumed bytes were an 8192-byte chunk, or the unterminated rest after which the end-of-file indicator is set, and the terminator was appended. A line shorter than 8192 bytes that stops before the end was terminated. |
| CopySpec.DrainPass | src/StreamTrait.php:233-235 | One pass of StreamTrait's loops reads min(n, rest) bytes from a readable source and nothing otherwise, counts no more than it read, and sets the source's end-of-file indicator iff it asked for more than was left; into a sink that takes every byte it counts all of them. |
| CopySpec.DrainPassReadsThenWrites | src/StreamTrait.php:233-234 | The pass is `fread` then `fwrite` of what was read, with fread's false written as "". |
| CopySpec.DrainPassCopies | src/StreamTrait.php:233-235 | From a readable source into a sink that takes every byte, a pass moves the source by min(n, rest), sets its indicator iff n exceeded the rest, counts every byte read and leaves the sink as one fwrite of them. |
| CopySpec.TraitWrite | src/Write/WriteTrait.php:22-36 | The traits' `write` raises "Unable to write data!" iff fwrite fails or writes 0 bytes of data that is not PHP-empty; otherwise it returns fwrite's count and effect. |
| CopySpec.TraitPass | src/Write/WriteTrait.php:86-88 | A trait pass raises the fread failure for an unreadable source or a length below 1. Otherwise it reads min(n, rest) bytes and sets the end-of-file indicator iff it asked for more than was left; into a sink that takes every byte it raises nothing and counts all of them. |
| CopySpec.TraitPassReadsThenWrites | src/Write/WriteTrait.php:106-107 | The trait pass is `read` then `write` of what was read, and nothing is written when the read fails. |
| CopySpec.TraitPassCopies | src/Write/WritableStreamTrait.php:106-107 | A readable pass into a sink that takes every byte moves the source by min(n, rest) and sets its indicator iff n exceeded the rest. Its sink is one fwrite of exactly those bytes. |
| CopySpec.CopyLimitCopiesPrefix | src/Write/WriteTrait.php:100-110 | `copyWithLimit` from a readable source into a sink that takes every byte raises nothing and reads and counts exactly min(budget, what is left to read) bytes; the source then reports its end iff it already did or the budget exceeded what was left. |
| CopySpec.DrainBudgetBounds | src/StreamTrait.php:240-252 | StreamTrait's budget loop never moves the source by more than the budget and reports no more than it read. |
| CopySpec.DrainAllBounds | src/StreamTrait.php:232-239 | StreamTrait's unbounded loop reports no more than it read. |
| CopySpec.DrainAllCopiesRest | src/StreamTrait.php:232-239 | From a readable source into a sink that takes every byte, the unbounded loop reads all that is left, reports its length and leaves the end-of-file indicator set; the sink is one fwrite of those bytes. |
| CopySpec.DrainBudgetCopiesPrefix | src/StreamTrait.php:240-252 | With budget `maxLen` the loop reads exactly min(maxLen, what is left to read) bytes and reports that many; the source reports its end iff it already did or the budget exceeded what was left. |
| CopySpec.DrainBudgetFillsSink | src/StreamTrait.php:240-252 | The budget loop leaves the sink untouched when nothing was copied, and otherwise as one fwrite of the copied bytes. |
| CopySpec.CopyAllCopiesRest | src/Write/WriteTrait.php:83-91 | `copyAll` from a readable source into a sink that takes every byte raises nothing and reads all that is left, leaving the end-of-file indicator set. It returns that length, and the sink is one fwrite of those bytes. |
| CopySpec.CopyLimitFillsSink | src/Write/WriteTrait.php:100-110 | `copyWithLimit` leaves the sink untouched when nothing was copied, and otherwise as one fwrite of the copied bytes. |
| CopySpec.CopyLimitRequests | src/Write/WritableStreamTrait.php:103-109 | `copyWithLimit` requests at most `maxLen` bytes in all, in at most ceil(maxLen / 1024) passes. |
| CopySpec.CopyLimitReadsRequested | src/Write/WritableStreamTrait.php:103-109 | It never reads more than it requested, and a zero budget reads, writes and counts nothing. |
| CopySpec.DrainFromCopies | src/StreamTrait.php:225-254 | StreamTrait's `writeFrom` copies all that is left (negative budget) or min(budget, what is left) bytes, reports that count, leaves the sink as one fwrite of them and the source's indicator set iff a read asked for more than was left. |
| CopySpec.TraitCopyFromCopies | src/Write/WritableStreamTrait.php:60-110 | The traits' `writeFrom` returns what is left (negative budget) or min(budget, what is left), with the same effect on both handles and on the source's indicator. |
| Streams.Refusal | src/Seek/Seekable.php:36-42 | A subclass refuses exactly the flag sets that lack its capability (Readable, Writable, Seekable), with its DomainException. |
| Streams.Stream.Init | src/Stream.php:63-82 | The constructor's fields: the flags the mode and metadata yield, `local` from the handle, the default terminator. |
| Streams.Stream.New | src/Stream.php:57-87 | A non-resource and a resource whose type lacks "stream" raise InvalidArgumentException; a subclass refuses a missing capability; otherwise a valid stream with the derived flags. |
| Streams.Stream.Detach | src/StreamTrait.php:96-105 | `detach` returns the old handle, clears the handle and the four flags, and keeps `local` and the terminator. |
| Streams.Stream.Close | src/Stream.php:102-119 | `close` closes a live handle, then detaches; afterwards the stream is detached and `eof()` holds. |
| Streams.Stream.Read | src/Stream.php:148-156 | `read` raises "Stream isn't readable!" without touching the handle unless readable; otherwise fread's result, never false for a positive length. |
| Streams.Stream.ReadLine | src/Stream.php:164-178 | `readLine` is refused unless readable. It fetches with the given or configured terminator, at most 8192 bytes, and appends the terminator only to a truthy line; it returns false exactly at the end, setting the end-of-file indicator. |
| Streams.Stream.GetContents | src/Stream.php:185-193 | `getContents` is refused unless readable; otherwise the bytes from the cursor on, leaving the cursor at the end and the end-of-file indicator set. |
| Streams.Stream.Write | src/Stream.php:201-209 | `write` raises "Stream isn't writable!" and leaves the handle alone when the stream is not writable, and otherwise returns fwrite's result with the handle as fwrite leaves it. |
| Streams.Stream.WriteLine | src/StreamTrait.php:262-270 | `writeLine` has the result and effect of `write` on the line with the given terminator, or else the stream's own, appended when the line does not already end with it. |
| Streams.Stream.Seek | src/Stream.php:218-229 | `seek` is refused unless seekable. It succeeds iff the target lies within the bytes and then moves there and clears the end-of-file indicator; otherwise it raises "Seek error!" and leaves the handle as it was. |
| Streams.Stream.Rewind | src/StreamTrait.php:204-207 | `rewind` on a seekable stream succeeds, puts the cursor at 0 and clears the end-of-file indicator. |
| Streams.Stream.Tell | src/Stream.php:251-258 | `tell` is refused unless seekable; otherwise the cursor. |
| Streams.Stream.Truncate | src/Stream.php:266-272 | `truncate` raises on a detached stream or when ftruncate fails, and otherwise truncates. |
| Streams.Stream.Eol | src/StreamTrait.php:112-118 | `eol` stores a given terminator and returns the current one; with none it changes nothing. |
| Streams.Stream.GetSize | src/StreamTrait.php:124-135 | `getSize` is null unless seekable; otherwise the length, with the bytes and the cursor as they were and the end-of-file indicator cleared by the two seeks. |
| Streams.Stream.ToString | src/StreamTrait.php:67-78 | `__toString` is "" unless readable; on a seekable stream it is the whole content with the cursor put back and the indicator cleared; otherwise what is left, with the indicator set. |
| Streams.Stream.WriteFrom | src/StreamTrait.php:225-254 | `writeFrom` returns 0 and touches nothing unless the sink is writable and the source readable; otherwise the count and both handles' states of `DrainFrom`. |
| Streams.ReadThenWrite | src/StreamTrait.php:233-235 | One pass on the two handles is `DrainPass`. |
| Streams.CopyToEof | src/StreamTrait.php:232-239 | The unbounded loop computes `DrainAll`. |
| Streams.CopyBudget | src/StreamTrait.php:240-252 | The budget loop, lowering the budget by the length read, computes `DrainBudget`. |
| ReadTrait.Read | src/Read/ReadTrait.php:21-31 | `read` succeeds iff the length is positive and the handle readable, and then returns the bytes from the cursor, min(length, rest) of them. Otherwise it raises. |
| ReadTrait.LineStep | src/Read/ReadTrait.php:39-49 | ReadTrait's `readLine` raises iff the handle is not readable. Its line always ends with the terminator and is at most 8192 bytes plus the terminator; before the end it moves the cursor on; at the end it is the terminator alone and sets the end-of-file indicator. |
| ReadTrait.ReadLine | src/Read/ReadTrait.php:39-49 | `readLine` acts as `LineStep` says. |
| ReadTrait.ReadAll | src/Read/ReadTrait.php:56-66 | `readAll` returns the rest from the cursor, leaves the cursor at the end and the end-of-file indicator set; it raises on a handle not opened for reading. |
| ReadTrait.Eof | src/Read/ReadTrait.php:72-75 | `eof` is exactly the handle's end-of-file indicator; once it holds the copy loops and iterators stop, with nothing counted as left; while it does not, every byte after the cursor is still to be read, even with the cursor at the end. |
| WriteTrait.Write | src/Write/WriteTrait.php:22-36 | `write` is `TraitWrite`; on success the bytes written land at the write position. |
| WriteTrait.WriteLine | src/Write/WriteTrait.php:44-52 | `writeLine` writes a text ending with the terminator (the given one, else the stream's), through `write`. |
| WriteTrait.WriteFrom | src/Write/WriteTrait.php:60-110 | `writeFrom` computes `TraitCopyFrom`: `copyAll` for a negative budget, else `copyWithLimit`. |
| TraitCopy.WriteChecked | src/Write/WriteTrait.php:22-36 | The shared `write` on a handle computes `TraitWrite`. |
| TraitCopy.ReadThenWriteChecked | src/Write/WriteTrait.php:106-107 | One pass `write(read(n))` computes `TraitPass`. |
| TraitCopy.CopyAll | src/Write/WriteTrait.php:83-91 | The `copyAll` loop computes `CopyAllF`, and returns its count or exception. |
| TraitCopy.CopyWithLimit | src/Write/WriteTrait.php:100-110 | The `copyWithLimit` loop, lowering the budget by the request, computes `CopyLimitF`. |
| TraitCopy.CopyFrom | src/Write/WritableStreamTrait.php:60-75 | The sign of the budget picks the loop. |
| SeekableMethods.SetCursor | src/Seek/Seekable.php:25-29 | `setCursor` moves to a target within the bytes and clears the end-of-file indicator; otherwise it leaves the handle as it was, raising nothing. |
| SeekableMethods.CursorBegin | src/Seek/Seekable.php:48-51 | `cursorBegin` puts the cursor at 0 and clears the end-of-file indicator. |
| SeekableMethods.CursorEnd | src/Seek/Seekable.php:57-60 | `cursorEnd` puts the cursor at the end with the indicator clear, so `eof()` is still false there. |
| SeekableMethods.CursorNext | src/Seek/Seekable.php:66-69 | `cursorNext` moves one byte on and clears the indicator, except at the end, where nothing changes. |
| SeekableMethods.CursorPrevious | src/Seek/Seekable.php:75-78 | `cursorPrevious` moves one byte back and clears the indicator, except at 0, where nothing changes. |
| SeekableMethods.CursorTo | src/Seek/Seekable.php:84-88 | `cursorTo` moves to an absolute offset, or to one relative to the cursor when `add` is set, and clears the indicator; a target outside the bytes changes nothing. |
| SeekableMethods.CursorPos | src/Seek/Seekable.php:94-97 | `cursorPos` is the cursor. |
| SeekableMethods.Truncate | src/Seek/Seekable.php:105-108 | `truncate` succeeds iff the handle is writable and the size fits. Then the length is the size, the kept prefix is unchanged and the cursor is pulled back; on failure nothing changes. |
| SeekableMethods.GetLength | src/Seek/Seekable.php:114-121 | `getLength` is the length; the bytes and the cursor end as they were, and the two seeks clear the end-of-file indicator. |
| SeekableStreamMethods.SetCursor | src/Seek/SeekableStream.php:25-29 | As Seekable's `setCursor`, on the wrapper's handle: a target within the bytes is reached and the indicator cleared, any other changes nothing. |
| SeekableStreamMethods.SeekBegin | src/Seek/SeekableStream.php:48-51 | `seekBegin` puts the cursor at 0 and clears the end-of-file indicator. |
| SeekableStreamMethods.SeekEnd | src/Seek/SeekableStream.php:57-60 | `seekEnd` puts the cursor at the end with the indicator clear. |
| SeekableStreamMethods.Seek | src/Seek/SeekableStream.php:66-70 | `seek` moves to an absolute offset, or to one relative to the cursor when `add` is set, and clears the indicator; a target outside the bytes changes nothing. |
| SeekableStreamMethods.Tell | src/Seek/SeekableStream.php:76-79 | `tell` is the cursor. |
| SeekableStreamMethods.Truncate | src/Seek/SeekableStream.php:87-90 | `truncate` succeeds iff the handle is writable and the size is non-negative and fits. Then the length is the size, the kept prefix is unchanged and the cursor is pulled back; on failure nothing changes. |
| SeekableStreamMethods.GetSize | src/Seek/SeekableStream.php:96-103 | `getSize` is the length; the bytes and the cursor end as they were, and the two seeks clear the end-of-file indicator. |
| Wrapper.ResourceCheck | src/StreamWrapper.php:125-157 | The constructor accepts exactly an open resource whose type contains "stream" in any letter case. |
| Wrapper.Refusal | src/Read/ReadableStream.php:22-28 | A variant refuses exactly the flag sets its constructor check rejects (READABLE for ReadableStream, WRITABLE for WritableStream, SEEKABLE for SeekableStream). |
| Wrapper.StreamWrapper.Init | src/StreamWrapper.php:134-153 | Adding the flags one at a time yields the derived flag set. |
| Wrapper.StreamWrapper.New | src/StreamWrapper.php:123-157 | The errors in the order checked; a variant is built iff its check admits the derived flags; then a valid wrapper on the handle. |
| Wrapper.StreamWrapper.IsReadable | src/StreamWrapper.php:222-225 | Testing the READABLE bit of the mask holds iff READABLE is in the flags. |
| Wrapper.StreamWrapper.IsWritable | src/StreamWrapper.php:213-216 | Testing the WRITABLE bit holds iff WRITABLE is in the flags. |
| Wrapper.StreamWrapper.IsSeekable | src/StreamWrapper.php:231-234 | Testing the SEEKABLE bit holds iff SEEKABLE is in the flags. |
| Wrapper.StreamWrapper.IsPersistent | src/StreamWrapper.php:240-243 | Testing the PERSISTENT bit holds iff PERSISTENT is in the flags. |
| Wrapper.StreamWrapper.Eol | src/StreamWrapper.php:201-207 | `eol` stores a given terminator and returns the current one; the flags and handle are untouched. |
| Wrapper.StreamWrapper.Factory | src/StreamWrapper.php:98-116 | `factory` raises the calling class's own errors. Otherwise it builds the variant `Select` picks, on the same open handle with the same flags. |
| WritableStreamTrait.Write | src/Write/WritableStreamTrait.php:22-36 | `write` is `TraitWrite` on the wrapper's handle; on success the bytes land at the write position. |
| WritableStreamTrait.WriteLine | src/Write/WritableStreamTrait.php:44-52 | `writeLine` writes a text ending with the given terminator, else the wrapper's. |
| WritableStreamTrait.WriteFrom | src/Write/WritableStreamTrait.php:60-110 | `writeFrom` computes `TraitCopyFrom` on the two handles. |
| Iterators.ReadLineRulesAgree | src/Read/ReadTrait.php:42-44 | The two `readLine` rules agree on a truthy line; at the end Stream's gives false and ReadTrait's the terminator. |
| Iterators.ReadLineOf | src/StreamIterator.php:47 | `$stream->readLine()` dispatches to ReadTrait's rule for Readable and Seekable, else Stream's. |
| Iterators.EofOf | src/Stream.php:115-120 | `$stream->eof()`, whichever class answers it, is true once detached and otherwise the handle's end-of-file indicator; while it is false all that follows the cursor is still to be read. |
| Iterators.StreamIterator.Init | src/StreamIterator.php:30-35 | The key starts at -1 with nothing handed out. |
| Iterators.StreamIterator.New | src/StreamIterator.php:30-38 | The constructor raises "Stream can't be read!" for an unreadable stream; otherwise an iterator with key -1. |
| Iterators.StreamIterator.Current | src/StreamIterator.php:45-50 | `current` reads one line and, unless that raised, appends it to the lines handed out, so the key moves by one. |
| Iterators.StreamIterator.Key | src/StreamIterator.php:56-59 | The key is the count of lines handed out since the last rewind, less one. |
| Iterators.StreamIterator.Rewind | src/StreamIterator.php:74-81 | `rewind` puts the cursor at 0 and clears the end-of-file indicator only when seekable, and always resets the key to -1. |
| Iterators.StreamIterator.HasLine | src/StreamIterator.php:87-90 | `valid` holds iff the stream is attached and no read has yet run into its end. |
| Iterators.ReadIterator.constructor | src/ReadIterator.php:29-33 | No capability check; the key starts at -1. |
| Iterators.ReadIterator.Current | src/ReadIterator.php:39-44 | One line per call; the key counts the lines handed out. |
| Iterators.ReadIterator.Key | src/ReadIterator.php:50-53 | The key is the count of lines handed out, less one. |
| Iterators.ReadIterator.Rewind | src/ReadIterator.php:68-75 | The cursor goes to 0 and the indicator is cleared only when seekable; the key is reset. |
| Iterators.ReadIterator.HasLine | src/ReadIterator.php:81-84 | `valid` holds iff the stream is attached and no read has yet run into its end. |
| Iterators.ReadableIterator.constructor | src/Read/Iterator.php:29-33 | The key starts at -1. |
| Iterators.ReadableIterator.Current | src/Read/Iterator.php:39-44 | One ReadTrait line per call, counted. |
| Iterators.ReadableIterator.Key | src/Read/Iterator.php:50-53 | The key is the count of lines handed out, less one. |
| Iterators.ReadableIterator.Rewind | src/Read/Iterator.php:68-72 | `rewind` resets only the key; the cursor stays. |
| Iterators.ReadableIterator.HasLine | src/Read/Iterator.php:78-81 | `valid` holds iff no read has yet run into the end, and then all that follows the cursor is still to be read. |
| Iterators.SeekableIterator.constructor | src/Seek/Iterator.php:18-21 | Only a Seekable is accepted; the key starts at -1. |
| Iterators.SeekableIterator.Current | src/Read/Iterator.php:39-44 | One ReadTrait line per call, counted. |
| Iterators.SeekableIterator.Key | src/Read/Iterator.php:50-53 | The key is the count of lines handed out, less one. |
| Iterators.SeekableIterator.Rewind | src/Seek/Iterator.php:27-31 | `rewind` calls `cursorBegin`, so the cursor is at 0 and the indicator clear, then resets the key. |
| Iterators.SeekableIterator.HasLine | src/Read/Iterator.php:78-81 | `valid` holds iff no read has yet run into the end, and then all that follows the cursor is still to be read. |
| Iterators.WrapperReadLine | src/Read/ReadableStreamIterator.php:41 | The wrapper's `readLine()` acts as ReadTrait's rule with PHP_EOL. |
| Iterators.ReadableStreamIterator.constructor | src/Read/ReadableStreamIterator.php:29-33 | The key starts at -1. |
| Iterators.ReadableStreamIterator.Current | src/Read/ReadableStreamIterator.php:39-44 | One line per call, counted. |
| Iterators.ReadableStreamIterator.Key | src/Read/ReadableStreamIterator.php:50-53 | The key is the count of lines handed out, less one. |
| Iterators.ReadableStreamIterator.Rewind | src/Read/ReadableStreamIterator.php:68-72 | `rewind` resets only the key and never moves the cursor. |
| Iterators.ReadableStreamIterator.HasLine | src/Read/ReadableStreamIterator.php:78-81 | `valid` holds iff no read on the wrapper's handle has yet run into its end, and then all that follows the cursor is still to be read. |
| Iterators.SeekableStreamIterator.constructor | src/Seek/SeekableStreamIterator.php:18-21 | Only a SeekableStream is accepted; the key starts at -1. |
| Iterators.SeekableStreamIterator.Current | src/Read/ReadableStreamIterator.php:39-44 | One line per call, counted. |
| Iterators.SeekableStreamIterator.Key | src/Read/ReadableStreamIterator.php:50-53 | The key is the count of lines handed out, less one. |
| Iterators.SeekableStreamIterator.Rewind | src/Seek/SeekableStreamIterator.php:27-31 | `rewind` moves the cursor to 0 and clears the indicator, then resets the key. |
| Iterators.SeekableStreamIterator.HasLine | src/Read/ReadableStreamIterator.php:78-81 | `valid` holds iff no read on the wrapper's handle has yet run into its end, and then all that follows the cursor is still to be read. |
| Scenarios.WriteFromReader | test/StreamTest.php:112-125 | An unlimited `writeFrom` of a readable stream at its start into a sink that takes every byte reports the source's size; a budget of 10 over at least 10 bytes reports 10. |
| Scenarios.TwoLinesGiveThreeElements | src/Read/Iterator.php:39-81 | Over "a\nb\n", ReadTrait's `readLine` gives "a\n" and "b\n" with the indicator still clear, so `valid()` holds after both; the third call gives "\n" alone and sets it. A foreach sees three elements. |
| Scenarios.WriteThenReadFromStart | test/StreamTest.php:130-137 | On an empty handle the trait's write stores exactly the text, and reading it from the start gives it back. |
| Scenarios.WriteLineThenReadBack | test/StreamTest.php:130-137 | `writeLine($line, "\n")`, `cursorBegin()`, `read(strlen($line) + 1)` on an empty temporary stream return the line and "\n". |
| Scenarios.WriteThenGetLength | test/StreamTest.php:142-148 | After writing a string to an empty temporary stream, `getLength()` is its length. |
| Scenarios.ReadableOverWriteOnly | test/StreamTest.php:95-98 | A Readable over a write-only ("wb") stream is refused with "Unreadable stream!". |
| Scenarios.WriteToReader | test/StreamTest.php:104-107 | Writing to a plain stream opened "rb" raises "Stream isn't writable!". |

## Left out

- The operating system's primitives. `fopen`, `fread`, `fwrite`, `fseek`, `ftell`, `ftruncate`, `feof`, `stream_get_line`, `stream_get_contents`, `stream_get_meta_data`, `stream_is_local` and `get_resource_type` are foreign calls. `RawHandle.Handle` replaces them with an in-memory buffer, and its mode, metadata and capacity are parameters.
- `open`'s `fopen` and its "Unable to open stream!" path, which need a file system; only the mode rule (`BinaryMode`) is modelled.
- `stream_get_line` with a positive maximum length. The sources always pass 0, which PHP caps at its 8192-byte chunk size; that case is modelled (`LINE_MAX`), other lengths are not.
- Streams.Stream.Seek: a target past the end fails here with "Seek error!", as in PHP's memory streams. On a plain file or `php://temp` `fseek` succeeds there, and a later write fills the gap with zero bytes; the model does not capture that.
- SeekableMethods.SetCursor: a target past the end leaves the handle as it was, as a memory stream does; a plain file would move the cursor past the end.
- SeekableMethods.CursorTo: as SeekableMethods.SetCursor for a target past the end.
- SeekableMethods.CursorNext: at the end the cursor stays, as a memory stream keeps it; a plain file would move one byte past the end.
- SeekableStreamMethods.SetCursor: as SeekableMethods.SetCursor, on the wrapper's handle.
- SeekableStreamMethods.Seek: as SeekableMethods.CursorTo, on the wrapper's handle.
- Capabilities.ModeFlags: a mode the pattern `^([rwax])(\+?)` does not match (an empty mode, say) leaves `$match` empty. Reading `$match[2]` then raises a PHP warning, which the repository's test bootstrap (`test/bootstrap.php:5-7`) turns into an ErrorException, so the constructor throws. The model reads the warning as having no handler: the missing entries compare as "" and the fallback branch gives WRITABLE.
- Event emission (`emit`, from EmitterTrait of the event package): an observer side effect that changes no state of the layer.
- Blocking mode: `isBlocked`, `setBlocking`, `toggleBlocking` and the non-seekable branch of `__toString`, which switches blocking around `getContents`. They depend on OS metadata; `Streams.Stream.ToString` gives the contents of that branch without the blocking calls.
- `getMetaData` and `getResource`: the model reads the handle's metadata directly.
- Destructors and serialisation: `__destruct` auto-close and `__sleep`. The wrapper's `__toString` (src/StreamWrapper.php:274-277) returns `\strval` of the wrapped resource, PHP's own string form of a resource id, which the model does not represent.
- The convenience classes and singletons: Mem, Memory, MemoryStream, Temp, TempFile, TempFileStream, StdIn, StdOut, StdErr, StdErrStream, Input, Output, InputStream and OutputStream. They only open a fixed path.
- `Stream::factory` in `test/StreamTest.php:29-34`: `src/Stream.php` defines no factory, so that test is not modelled.
- ReadWrite and ReadWriteStream: they hold no code. ReadWriteStream is a variant tag of the factory; ReadWrite is not a class of the `Stream` model.
- ReadableStreamTrait and BitMask are not part of this model. The readable trait's `readLine`, `read` and `eof` are taken as ReadTrait's rule, fread and feof (`Iterators.WrapperReadLine`, `TraitCopy`). BitMask is a set of flags whose sum of bits is tested bit by bit.
- `StreamInterface::DEFAULT_READ`: StreamInterface declares it outside this layer; 8192 is assumed, and every property uses only that it is positive.
- PHP's loose comparisons: the suffix test of `writeLine` compares strings exactly, as `!=` does for two strings that are not numeric. Numeric strings such as "1.0" and "1" are not treated as equal.
- Aliasing of the source and sink of a copy: every copy requires two distinct handles.
- Getting an iterator: `getIterator` is the constructor of the iterator class it returns. `Stream::getIterator` returns a LineIterator, which is not part of this model.
- Calling a ReadTrait, WriteTrait or Seekable operation on a detached stream, which PHP turns into a type error. These methods require an attached handle.
- `$this->resource` as an undefined property: the notice, the null handle and the exception they cause in the trait methods are not modelled; the trait methods act on the stream's handle instead (see the disagreements above).
- Streams.Stream.Read: a length below 1 returns `Ok(None)`, PHP 7's `false` after a warning with no error handler installed. Under the test bootstrap's handler that warning is an `ErrorException` that `read` lets through, and on PHP 8 `fread` throws a `ValueError`; neither exception is modelled.
- ReadTrait.Read: a failing `fread` (a length below 1, a handle not opened for reading) raises `IoFailure("fread")`, which is the trait's `Zeus\Stream\Read\Exception` under the test bootstrap's error handler. Without a handler `read` returns `false` instead, and on PHP 8 a length below 1 throws a `ValueError` that the trait does not catch; neither is modelled.
- ReadTrait.LineStep: on a handle not opened for reading it raises `IoFailure("stream_get_line")`, as under the test bootstrap's error handler. Without a handler `stream_get_line` returns `false` and `readLine` returns `false . $eol`, the terminator alone; that outcome is not modelled. ReadTrait.ReadLine inherits this reading.
- ReadTrait.ReadAll: on a handle not opened for reading it raises `IoFailure("stream_get_contents")`, as under the test bootstrap's error handler. Without a handler `readAll` returns `false`; that outcome is not modelled.
- CopySpec.TraitPass: a failing read raises before anything is written, as under the test bootstrap's error handler. Without a handler `read` gives `false`, `write(false)` writes "" and returns 0, and `copyAll` keeps looping while `feof` stays false; that outcome is not modelled.
- CopySpec.TraitWrite: a failing `fwrite` raises "Unable to write data!", PHP's reading without a handler. Under the test bootstrap's handler the failure raises the same `Zeus\Stream\Write\Exception` class, but with PHP's diagnostic as its message, which is not modelled.
- `next()` is a method with no effect and needs no contract.
- Default arguments (`$size = 0`, `$bytes = 1024`, `$maxLen = -1`, `$eol = null`) are explicit parameters of the methods.
- Iterators.SeekableStreamIterator.Rewind: uses `seekBegin`, because the `cursorBegin` the source calls does not exist on SeekableStream.
- CopySpec.DrainBudgetBounds: says nothing about the sink for a zero budget; `DrainBudgetFillsSink` covers the sink for readable sources.

=== FILE: capabilities.dfy ===
/** The capability rules of the stream wrappers: the flag bits, how the open
    mode and the resource metadata become flags, the binary-mode suffix added
    by `open`, and the precedence by which `factory` picks a typed variant. */
module Capabilities {
  import opened Php
  import opened RawHandle

  datatype Flag = Readable | Writable | Seekable | Persistent

  /** StreamWrapper::READABLE, WRITABLE, SEEKABLE and PERSISTENT. */
  function Bit(f: Flag): nat {
    match f
    case Readable => 1
    case Writable => 2
    case Seekable => 4
    case Persistent => 8
  }

  /** The integer a flag set stands for once its bits are added together. */
  function Mask(fs: set<Flag>): nat {
    (if Readable in fs then 1 else 0) + (if Writable in fs then 2 else 0)
    + (if Seekable in fs then 4 else 0) + (if Persistent in fs then 8 else 0)
  }

  /** Testing one bit of a mask. */
  predicate HasBit(mask: nat, f: Flag) {
    (mask / Bit(f)) % 2 == 1
  }

  /** The four flag constants are distinct single bits. */
  lemma FlagBitsAreDistinctPowersOfTwo(f: Flag, g: Flag)
    ensures Bit(f) in {1, 2, 4, 8}
    ensures f != g ==> Bit(f) != Bit(g)
  {
  }

  /** So testing a flag in the combined mask sees that flag and no other. */
  lemma {:induction false} MaskTestsMembership(fs: set<Flag>, f: Flag)
    ensures HasBit(Mask(fs), f) <==> f in fs
  {
    var r := if Readable in fs then 1 else 0;
    var w := if Writable in fs then 1 else 0;
    var s := if Seekable in fs then 1 else 0;
    var p := if Persistent in fs then 1 else 0;
    var m := Mask(fs);
    assert m == r + 2 * w + 4 * s + 8 * p;
    match f
    case Readable =>
      assert m / 1 == m && m % 2 == r;
    case Writable =>
      assert m / 2 == w + 2 * s + 4 * p;
      assert (m / 2) % 2 == w;
    case Seekable =>
      assert m / 4 == s + 2 * p;
      assert (m / 4) % 2 == s;
    case Persistent =>
      assert m / 8 == p;
  }

  /** `preg_match('/^([rwax])(\+?)/', $mode)` matched. */
  predicate ModeMatches(mode: string) {
    |mode| > 0 && mode[0] in "rwax"
  }

  /** The second capture group of that pattern is '+'. */
  predicate ModePlus(mode: string) {
    ModeMatches(mode) && |mode| > 1 && mode[1] == '+'
  }

  /** The readable/writable part of the flags derived from the reported mode. */
  function ModeFlags(mode: string): set<Flag> {
    if ModePlus(mode) then {Readable, Writable}
    else if ModeMatches(mode) && mode[0] == 'r' then {Readable}
    else {Writable}
  }

  /** Every mode yields READABLE or WRITABLE or both; READABLE alone exactly
      for an 'r' not followed by '+'; both exactly for a second character '+'. */
  lemma ModeFlagsCases(mode: string)
    ensures Readable in ModeFlags(mode) || Writable in ModeFlags(mode)
    ensures ModeFlags(mode) <= {Readable, Writable}
    ensures (Readable in ModeFlags(mode) && Writable in ModeFlags(mode)) <==> ModePlus(mode)
    ensures (ModeFlags(mode) == {Readable}) <==> (|mode| > 0 && mode[0] == 'r' && !ModePlus(mode))
    ensures (ModeFlags(mode) == {Writable}) <==> !(|mode| > 0 && mode[0] == 'r') && !ModePlus(mode)
  {
    if ModePlus(mode) {
      assert Writable !in {Readable};
    } else if ModeMatches(mode) && mode[0] == 'r' {
      assert Writable !in {Readable};
    } else {
      assert Readable !in {Writable};
    }
  }

  /** A READABLE flag always stands for a handle the system lets us read. */
  lemma ReadableFlagIsSound(mode: string)
    requires Readable in ModeFlags(mode)
    ensures OsReadable(mode)
  {
    if !ModePlus(mode) {
      assert ModeFlags(mode) == {Readable} || ModeFlags(mode) == {Writable};
    }
  }

  /** The pattern only sees a '+' in second place: "rb+" and "c+" are
      read-write handles to the system, but "rb+" gets READABLE only and
      "c+" gets WRITABLE only. */
  lemma ModeFlagsMissLatePlus()
    ensures OsWritable("rb+") && ModeFlags("rb+") == {Readable}
    ensures OsReadable("c+") && ModeFlags("c+") == {Writable}
  {
  }

  /** The whole flag set the constructor builds. */
  function DeriveFlags(m: Meta): set<Flag> {
    ModeFlags(m.mode)
    + (if ContainsIgnoreCase(m.resType, "persistent") then {Persistent} else {})
    + (if m.seekable then {Seekable} else {})
  }

  lemma DeriveFlagsSpec(m: Meta)
    ensures (Persistent in DeriveFlags(m)) <==> exists j :: 0 <= j <= |m.resType| && MatchAt(m.resType, "persistent", j)
    ensures (Seekable in DeriveFlags(m)) <==> m.seekable
    ensures (Readable in DeriveFlags(m)) <==> (Readable in ModeFlags(m.mode))
    ensures (Writable in DeriveFlags(m)) <==> (Writable in ModeFlags(m.mode))
    ensures Readable in DeriveFlags(m) || Writable in DeriveFlags(m)
  {
    ModeFlagsCases(m.mode);
  }

  /** The mode `open` passes to fopen: a 'b' is appended unless the mode
      already ends in one. */
  function BinaryMode(mode: string): string {
    if |mode| > 0 && mode[|mode| - 1] == 'b' then mode else mode + "b"
  }

  lemma BinaryModeSpec(mode: string)
    ensures EndsWith(BinaryMode(mode), "b")
    ensures BinaryMode(mode) == mode <==> EndsWith(mode, "b")
    ensures BinaryMode(mode) != mode ==> BinaryMode(mode) == mode + "b"
    ensures BinaryMode(BinaryMode(mode)) == BinaryMode(mode)
  {
    if !(|mode| > 0 && mode[|mode| - 1] == 'b') {
      assert |BinaryMode(mode)| == |mode| + 1;
    }
  }

  /** The suffix changes neither the flags the wrappers derive nor what the
      system grants. */
  lemma BinaryModeKeepsCapabilities(mode: string)
    ensures ModeFlags(BinaryMode(mode)) == ModeFlags(mode)
    ensures |mode| > 0 ==> OsReadable(BinaryMode(mode)) == OsReadable(mode)
    ensures |mode| > 0 ==> OsWritable(BinaryMode(mode)) == OsWritable(mode)
  {
    var b := BinaryMode(mode);
    if b != mode {
      assert b == mode + "b";
      assert forall i :: 0 <= i < |mode| ==> b[i] == mode[i];
      assert ('+' in b) == ('+' in mode) by {
        if '+' in b {
          var i :| 0 <= i < |b| && b[i] == '+';
          assert i < |mode|;
        }
      }
    }
  }

  /** The typed classes of the wrapper revision: the plain wrapper and the
      four variants the factory can build. */
  datatype Variant = Plain | SeekableStream | ReadWriteStream | ReadableStream | WritableStream

  /** The flag each variant's constructor insists on. */
  predicate Admits(v: Variant, fs: set<Flag>) {
    match v
    case Plain => true
    case ReadWriteStream => true
    case SeekableStream => Seekable in fs
    case ReadableStream => Readable in fs
    case WritableStream => Writable in fs
  }

  /** `factory`'s choice, first match wins. */
  function Select(fs: set<Flag>): Variant {
    if Seekable in fs then SeekableStream
    else if Readable in fs && Writable in fs then ReadWriteStream
    else if Readable in fs then ReadableStream
    else WritableStream
  }

  /** `factory`'s tests in the order it makes them: each variant with the
      flags it needs; the last entry needs none. */
  const FactoryOrder: seq<(Variant, set<Flag>)> :=
    [(SeekableStream, {Seekable}), (ReadWriteStream, {Readable, Writable}), (ReadableStream, {Readable}), (WritableStream, {})]

  /** The first entry of `order` at or after `from` whose flags are all in
      `fs`, or `|order|` when there is none. */
  function FirstFit(order: seq<(Variant, set<Flag>)>, fs: set<Flag>, from: nat): (r: nat)
    requires from <= |order|
    ensures from <= r <= |order|
    ensures r < |order| ==> order[r].1 <= fs
    ensures forall j :: from <= j < r ==> !(order[j].1 <= fs)
    decreases |order| - from
  {
    if from == |order| then from
    else if order[from].1 <= fs then from
    else FirstFit(order, fs, from + 1)
  }

  /** `factory` builds the variant of the first entry of FactoryOrder whose
      flags the stream has, and some entry always fits. */
  lemma SelectPrecedence(fs: set<Flag>)
    ensures var i := FirstFit(FactoryOrder, fs, 0);
      i < |FactoryOrder| && FactoryOrder[i].0 == Select(fs)
  {
  }

  /** The variant the factory picks for a stream passes its own constructor
      check; in the fallback branch that is because every mode yields
      WRITABLE when it does not yield READABLE. */
  lemma SelectIsAdmitted(m: Meta)
    ensures Admits(Select(DeriveFlags(m)), DeriveFlags(m))
    ensures Select(DeriveFlags(m)) != Plain
  {
    DeriveFlagsSpec(m);
  }
}

=== FILE: copy_spec.dfy ===
/** What the stream-to-stream copy loops compute, as functions of the two
    buffers. StreamTrait's `writeFrom` (two loops, stop when a chunk write
    returns 0 or false, budget lowered by the bytes actually read) and the
    `copyAll` / `copyWithLimit` pair shared by WritableStreamTrait and
    WriteTrait (a failed write throws, budget lowered by the bytes requested)
    are kept apart. */
module CopySpec {
  import opened Wrappers
  import opened Php
  import opened RawHandle

  /** The chunk `copyWithLimit` asks for at most, and the default of the
      traits' `read()`. */
  const CHUNK: nat := 1024

  /** `$bytes += $wbytes`, where false adds nothing. */
  function Count(w: Option<nat>): nat {
    match w
    case None => 0
    case Some(n) => n
  }

  /** `fread`'s false, used as a string: the empty string. */
  function Chunk(r: Option<string>): string {
    match r
    case None => ""
    case Some(s) => s
  }

  /** What reads can still deliver: the bytes behind the cursor, or nothing
      once the end-of-file indicator is set. The copy loops stop on the
      indicator, not on the cursor. */
  function Remaining(b: Buf): (n: nat)
    requires Inside(b)
    ensures n <= |b.data| - b.pos
    ensures n == 0 <==> b.eof || AtEnd(b)
  {
    if b.eof then 0 else |b.data| - b.pos
  }

  /** A sink that accepts every byte: opened for writing, no capacity. */
  predicate Unbounded(dm: Meta) {
    OsWritable(dm.mode) && dm.capacity.None?
  }

  /** After a complete write, the next one lands right behind it. */
  lemma WriteAtAdvances(dm: Meta, db: Buf, c: string)
    requires Inside(db) && Unbounded(dm)
    ensures var w := WriteBuf(dm, db, c);
      w.out == Some(|c|)
      && w.after.data == Overwrite(db.data, WriteAt(dm, db), c)
      && WriteAt(dm, w.after) == WriteAt(dm, db) + |c|
  {
    var at := WriteAt(dm, db);
    assert c[..|c|] == c;
    assert |Overwrite(db.data, at, c)| >= at + |c|;
  }

  /** A budget spent in two steps, the first of at most `a`, takes as much
      of `r` as one step of `b` would. */
  lemma MinSplit(a: int, b: int, r: int)
    requires 0 <= a <= b && 0 <= r
    ensures Min(a, r) + Min(b - a, r - Min(a, r)) == Min(b, r)
  {
  }

  /** Writing src[p..q] and then src[q..r] right behind it is writing src[p..r]. */
  lemma WriteInTwoSteps(d: string, at: nat, src: string, p: nat, q: nat, r: nat)
    requires at <= |d| && p <= q <= r <= |src|
    ensures at + (q - p) <= |Overwrite(d, at, src[p..q])|
    ensures Overwrite(Overwrite(d, at, src[p..q]), at + (q - p), src[q..r]) == Overwrite(d, at, src[p..r])
  {
    OverwriteTwice(d, at, src[p..q], src[q..r]);
    assert src[p..q] + src[q..r] == src[p..r];
  }

  /** Into a sink that takes every byte, two writes one behind the other
      leave it as one write of both. */
  lemma WriteSplit(dm: Meta, db: Buf, src: string, i: nat, j: nat, k: nat)
    requires Inside(db) && Unbounded(dm) && i <= j <= k <= |src|
    ensures var w1 := WriteBuf(dm, db, src[i..j]).after;
      Inside(w1) && WriteBuf(dm, w1, src[j..k]).after == WriteBuf(dm, db, src[i..k]).after
  {
    var w1 := WriteBuf(dm, db, src[i..j]).after;
    WriteAtAdvances(dm, db, src[i..j]);
    WriteAtAdvances(dm, w1, src[j..k]);
    WriteAtAdvances(dm, db, src[i..k]);
    WriteInTwoSteps(db.data, WriteAt(dm, db), src, i, j, k);
  }

  /** What one read-then-write pass did: both buffers after it, the length
      of the chunk read, the count the write reported, and the exception
      that ended it, if one did. */
  datatype Pass = Pass(src: Buf, dst: Buf, length: nat, written: nat, failure: Option<Error>)

  /** Where StreamTrait's loop leaves both buffers, and the bytes it reports. */
  datatype Drained = Drained(src: Buf, dst: Buf, bytes: nat)

  /** Where a trait copy leaves both buffers, the bytes it reports, the sum of the
      lengths it asked the source for, how many passes it made, and the
      exception that ended it, if one did. */
  datatype Outcome = Outcome(src: Buf, dst: Buf, bytes: nat, requested: nat, passes: nat, failure: Option<Error>)

  /** StreamTrait's pass, `$data = $src->read($n); $wbytes = $this->write($data)`:
      false from `fread` is written as "", false from `fwrite` counts 0. It
      never reports more than it read, and into a sink that takes every
      byte it writes exactly the chunk read, where the next write goes. A
      read that asks for more than is left sets the end-of-file indicator. */
  function DrainPass(sm: Meta, sb: Buf, dm: Meta, db: Buf, n: int): (p: Pass)
    requires Inside(sb) && Inside(db)
    ensures Inside(p.src) && Inside(p.dst) && p.src.data == sb.data && p.src.pos == sb.pos + p.length
    ensures p.written <= p.length && p.failure.None?
    ensures OsReadable(sm.mode) && n > 0 ==> p.length == Min(n, |sb.data| - sb.pos)
    ensures !(OsReadable(sm.mode) && n > 0) ==> p.length == 0 && p.src == sb
    ensures p.src.eof <==> sb.eof || (OsReadable(sm.mode) && n > |sb.data| - sb.pos)
    ensures Unbounded(dm) ==> p.written == p.length
  {
    if OsReadable(sm.mode) && n > 0 then
      var k := Min(n, |sb.data| - sb.pos);
      var wr := WriteBuf(dm, db, sb.data[sb.pos..sb.pos + k]);
      Pass(Buf(sb.data, sb.pos + k, sb.eof || n > |sb.data| - sb.pos), wr.after, k, Count(wr.out), None)
    else
      var wr := WriteBuf(dm, db, "");
      Pass(sb, wr.after, 0, Count(wr.out), None)
  }

  /** The pass is fread followed by fwrite of what it read, with fread's
      false written as "". */
  lemma DrainPassReadsThenWrites(sm: Meta, sb: Buf, dm: Meta, db: Buf, n: int)
    requires Inside(sb) && Inside(db)
    ensures var rd := ReadBuf(sm, sb, n);
      var wr := WriteBuf(dm, db, Chunk(rd.out));
      DrainPass(sm, sb, dm, db, n) == Pass(rd.after, wr.after, |Chunk(rd.out)|, Count(wr.out), None)
  {
  }

  /** From a readable source into a sink that takes every byte, a pass
      writes exactly the min(n, rest) bytes it read. */
  lemma DrainPassCopies(sm: Meta, sb: Buf, dm: Meta, db: Buf, n: int)
    requires Inside(sb) && Inside(db) && OsReadable(sm.mode) && Unbounded(dm) && n > 0
    ensures var p := DrainPass(sm, sb, dm, db, n);
      p.written == p.length == Min(n, |sb.data| - sb.pos)
      && p.src == Buf(sb.data, sb.pos + p.length, sb.eof || n > |sb.data| - sb.pos)
      && p.dst == WriteBuf(dm, db, sb.data[sb.pos..p.src.pos]).after
  {
  }

  /** StreamTrait's first loop (`$maxLen < 0`): DEFAULT_READ bytes a pass,
      stopping once the source reports its end or after a write that
      reported 0. */
  function DrainAll(sm: Meta, sb: Buf, dm: Meta, db: Buf, bytes: nat): (o: Drained)
    requires Inside(sb) && Inside(db)
    decreases |sb.data| - sb.pos
  {
    if sb.eof then Drained(sb, db, bytes)
    else
      var p := DrainPass(sm, sb, dm, db, DEFAULT_READ);
      if p.written == 0 then Drained(p.src, p.dst, bytes)
      else DrainAll(sm, p.src, dm, p.dst, bytes + p.written)
  }

  /** The length StreamTrait's second loop asks for: the budget, capped at
      DEFAULT_READ. */
  function Request(maxLen: int): nat
    requires maxLen > 0
  {
    if maxLen >= DEFAULT_READ then DEFAULT_READ else maxLen
  }

  /** StreamTrait's second loop (`$maxLen > 0`): ask for at most the remaining
      budget, lower the budget by the length actually read. */
  function DrainBudget(sm: Meta, sb: Buf, dm: Meta, db: Buf, maxLen: int, bytes: nat): (o: Drained)
    requires Inside(sb) && Inside(db)
    decreases if maxLen > 0 then maxLen else 0
  {
    if maxLen <= 0 || sb.eof then Drained(sb, db, bytes)
    else
      var p := DrainPass(sm, sb, dm, db, Request(maxLen));
      if p.written == 0 then Drained(p.src, p.dst, bytes)
      else DrainBudget(sm, p.src, dm, p.dst, maxLen - p.length, bytes + p.written)
  }

  /** StreamTrait's `writeFrom` once both capability checks have passed: of
      its two loops at most one runs, chosen by the sign of the budget. */
  function DrainFrom(sm: Meta, sb: Buf, dm: Meta, db: Buf, maxLen: int): Drained
    requires Inside(sb) && Inside(db)
  {
    if maxLen < 0 then DrainAll(sm, sb, dm, db, 0) else DrainBudget(sm, sb, dm, db, maxLen, 0)
  }

  /** The traits' `write`: the count, or a throw when the primitive returned
      false or wrote nothing of data that is not PHP-empty. */
  function TraitWrite(m: Meta, b: Buf, data: string): (r: Step<Result<nat>>)
    requires Inside(b)
    ensures Inside(r.after)
    ensures r.out.Err? <==> |data| > 0 && (!OsWritable(m.mode) || (WriteBuf(m, b, data).out.value == 0 && !Falsy(data)))
    ensures r.out.Ok? ==> WriteBuf(m, b, data) == Step(Some(r.out.value), r.after)
    ensures r.out.Err? ==> r.out == Err(WriteFailure("Unable to write data!"))
  {
    var w := WriteBuf(m, b, data);
    if w.out.None? || (w.out.value == 0 && !Falsy(data)) then Step(Err(WriteFailure("Unable to write data!")), w.after)
    else Step(Ok(w.out.value), w.after)
  }

  /** The traits' pass, `$bytes += $this->write($from->read($n))`: a failing
      `fread` raises (the traits' ErrorException path), and so does a failed
      write; a pass that raised nothing read exactly min(n, rest) bytes. */
  function TraitPass(sm: Meta, sb: Buf, dm: Meta, db: Buf, n: int): (p: Pass)
    requires Inside(sb) && Inside(db)
    ensures Inside(p.src) && Inside(p.dst) && p.src.data == sb.data && p.src.pos == sb.pos + p.length
    ensures p.src.eof <==> sb.eof || (OsReadable(sm.mode) && n > |sb.data| - sb.pos)
    ensures p.failure.None? ==> OsReadable(sm.mode) && n > 0 && p.length == Min(n, |sb.data| - sb.pos) && p.written <= p.length
    ensures !OsReadable(sm.mode) || n <= 0 ==> p.failure == Some(IoFailure("fread"))
    ensures p.failure.Some? ==> p.written == 0
    ensures Unbounded(dm) && OsReadable(sm.mode) && n > 0 ==> p.failure.None? && p.written == p.length
  {
    if !OsReadable(sm.mode) || n <= 0 then Pass(sb, db, 0, 0, Some(IoFailure("fread")))
    else
      var rd := ReadBuf(sm, sb, n);
      var tw := TraitWrite(dm, db, rd.out.value);
      match tw.out
      case Err(e) => Pass(rd.after, tw.after, |rd.out.value|, 0, Some(e))
      case Ok(w) => Pass(rd.after, tw.after, |rd.out.value|, w, None)
  }

  /** The pass is fread followed by the traits' `write` of what it read,
      and nothing is written when fread fails. */
  lemma TraitPassReadsThenWrites(sm: Meta, sb: Buf, dm: Meta, db: Buf, n: int)
    requires Inside(sb) && Inside(db)
    ensures var rd := ReadBuf(sm, sb, n);
      var p := TraitPass(sm, sb, dm, db, n);
      p.src == rd.after
      && (rd.out.None? ==> p.dst == db && p.failure == Some(IoFailure("fread")))
      && (rd.out.Some? ==>
            var tw := TraitWrite(dm, db, rd.out.value);
            p.dst == tw.after
            && (tw.out.Ok? ==> p.failure.None? && p.written == tw.out.value)
            && (tw.out.Err? ==> p.failure == Some(tw.out.error)))
  {
  }

  /** From a readable source into a sink that takes every byte, a trait pass
      raises nothing and writes exactly the min(n, rest) bytes it read. */
  lemma TraitPassCopies(sm: Meta, sb: Buf, dm: Meta, db: Buf, n: int)
    requires Inside(sb) && Inside(db) && OsReadable(sm.mode) && Unbounded(dm) && n > 0
    ensures var p := TraitPass(sm, sb, dm, db, n);
      p.failure.None? && p.written == p.length == Min(n, |sb.data| - sb.pos)
      && p.src == Buf(sb.data, sb.pos + p.length, sb.eof || n > |sb.data| - sb.pos)
      && p.dst == WriteBuf(dm, db, sb.data[sb.pos..p.src.pos]).after
  {
  }

  /** `copyAll`: the default chunk a pass until the source reports its end,
      summing the write counts; an exception ends it. A pass at the end of
      the bytes reads nothing, sets the indicator and writes "". */
  function CopyAllF(sm: Meta, sb: Buf, dm: Meta, db: Buf, bytes: nat, requested: nat, passes: nat): (o: Outcome)
    requires Inside(sb) && Inside(db)
    decreases |sb.data| - sb.pos, if sb.eof then 0 else 1
  {
    if sb.eof then Outcome(sb, db, bytes, requested, passes, None)
    else
      var p := TraitPass(sm, sb, dm, db, CHUNK);
      if p.failure.Some? then Outcome(p.src, p.dst, bytes, requested + CHUNK, passes + 1, p.failure)
      else CopyAllF(sm, p.src, dm, p.dst, bytes + p.written, requested + CHUNK, passes + 1)
  }

  /** The length `copyWithLimit` asks for: the budget, capped at CHUNK. */
  function LimitRequest(maxLen: int): int {
    if maxLen > CHUNK then CHUNK else maxLen
  }

  /** `copyWithLimit`: ask for min(budget, CHUNK), lower the budget by that
      request, read and write, until the source reports its end or the
      budget is spent. */
  function CopyLimitF(sm: Meta, sb: Buf, dm: Meta, db: Buf, maxLen: int, bytes: nat, requested: nat, passes: nat): Outcome
    requires Inside(sb) && Inside(db)
    decreases if maxLen > 0 then maxLen else 0
  {
    if sb.eof || maxLen <= 0 then Outcome(sb, db, bytes, requested, passes, None)
    else
      var len := LimitRequest(maxLen);
      var p := TraitPass(sm, sb, dm, db, len);
      if p.failure.Some? then Outcome(p.src, p.dst, bytes, requested + len, passes + 1, p.failure)
      else CopyLimitF(sm, p.src, dm, p.dst, maxLen - len, bytes + p.written, requested + len, passes + 1)
  }

  /** `o` is what StreamTrait's unbounded copy loop ends with from the given point on. */
  ghost predicate DrainAllYields(o: Drained, sm: Meta, sb: Buf, dm: Meta, db: Buf, bytes: nat)
    requires Inside(sb) && Inside(db)
  {
    o == DrainAll(sm, sb, dm, db, bytes)
  }

  /** `o` is what StreamTrait's budget copy loop ends with from the given point on. */
  ghost predicate DrainBudgetYields(o: Drained, sm: Meta, sb: Buf, dm: Meta, db: Buf, maxLen: int, bytes: nat)
    requires Inside(sb) && Inside(db)
  {
    o == DrainBudget(sm, sb, dm, db, maxLen, bytes)
  }

  /** `o` is what `copyAll` ends with from the given point on. */
  ghost predicate AllYields(o: Outcome, sm: Meta, sb: Buf, dm: Meta, db: Buf, bytes: nat, requested: nat, passes: nat)
    requires Inside(sb) && Inside(db)
  {
    o == CopyAllF(sm, sb, dm, db, bytes, requested, passes)
  }

  /** `o` is what `copyWithLimit` ends with from the given point on. */
  ghost predicate LimitYields(o: Outcome, sm: Meta, sb: Buf, dm: Meta, db: Buf, maxLen: int, bytes: nat, requested: nat, passes: nat)
    requires Inside(sb) && Inside(db)
  {
    o == CopyLimitF(sm, sb, dm, db, maxLen, bytes, requested, passes)
  }

  /** What a trait copy hands its caller: the count, or the exception that
      ended it. */
  function Returned(o: Outcome): Result<nat> {
    match o.failure
    case None => Ok(o.bytes)
    case Some(e) => Err(e)
  }

  /** The traits' `writeFrom`: a negative budget copies everything. */
  function TraitCopyFrom(sm: Meta, sb: Buf, dm: Meta, db: Buf, maxLen: int): Outcome
    requires Inside(sb) && Inside(db)
  {
    if maxLen < 0 then CopyAllF(sm, sb, dm, db, 0, 0, 0) else CopyLimitF(sm, sb, dm, db, maxLen, 0, 0, 0)
  }

  // The lemmas below speak of a given outcome `o` of the loop function,
  // so that the function is unfolded one pass at a time.

  /** StreamTrait's budget loop never reads more than the budget and
      reports no more than it read. */
  lemma {:induction false} DrainBudgetBounds(sm: Meta, sb: Buf, dm: Meta, db: Buf, maxLen: int, bytes: nat, o: Drained)
    requires Inside(sb) && Inside(db) && maxLen >= 0
    requires o == DrainBudget(sm, sb, dm, db, maxLen, bytes)
    ensures o.src.data == sb.data && sb.pos <= o.src.pos <= sb.pos + maxLen
    ensures bytes <= o.bytes <= bytes + (o.src.pos - sb.pos)
    decreases maxLen
  {
    if maxLen > 0 && !sb.eof {
      var p := DrainPass(sm, sb, dm, db, Request(maxLen));
      assert p.length <= maxLen;
      if p.written != 0 {
        DrainBudgetBounds(sm, p.src, dm, p.dst, maxLen - p.length, bytes + p.written, o);
      }
    }
  }

  /** StreamTrait's unbounded loop reports no more than it read. */
  lemma {:induction false} DrainAllBounds(sm: Meta, sb: Buf, dm: Meta, db: Buf, bytes: nat, o: Drained)
    requires Inside(sb) && Inside(db)
    requires o == DrainAll(sm, sb, dm, db, bytes)
    ensures o.src.data == sb.data && sb.pos <= o.src.pos
    ensures bytes <= o.bytes <= bytes + (o.src.pos - sb.pos)
    decreases |sb.data| - sb.pos
  {
    if !sb.eof {
      var p := DrainPass(sm, sb, dm, db, DEFAULT_READ);
      if p.written != 0 {
        DrainAllBounds(sm, p.src, dm, p.dst, bytes + p.written, o);
      }
    }
  }

  /** From a readable source into a sink that takes every byte, StreamTrait's
      unbounded loop copies all that remains of the source, reports its
      length and leaves the source reporting its end; the sink ends as one
      `fwrite` of those bytes would leave it. */
  lemma {:induction false} DrainAllCopiesRest(sm: Meta, sb: Buf, dm: Meta, db: Buf, bytes: nat, o: Drained)
    requires Inside(sb) && Inside(db) && OsReadable(sm.mode) && Unbounded(dm)
    requires o == DrainAll(sm, sb, dm, db, bytes)
    ensures o.src == Buf(sb.data, sb.pos + Remaining(sb), true)
    ensures o.bytes == bytes + Remaining(sb)
    ensures o.dst == WriteBuf(dm, db, sb.data[sb.pos..o.src.pos]).after
    decreases |sb.data| - sb.pos
  {
    if !sb.eof {
      var p := DrainPass(sm, sb, dm, db, DEFAULT_READ);
      DrainPassCopies(sm, sb, dm, db, DEFAULT_READ);
      if p.written != 0 {
        DrainAllCopiesRest(sm, p.src, dm, p.dst, bytes + p.written, o);
        WriteSplit(dm, db, sb.data, sb.pos, p.src.pos, o.src.pos);
      }
    }
  }

  /** With a budget, StreamTrait's loop reads exactly the first
      min(budget, remaining) bytes of a readable source into a sink that
      takes every byte, reports that many, and leaves the source reporting
      its end exactly when the budget exceeded what remained. */
  lemma {:induction false} DrainBudgetCopiesPrefix(sm: Meta, sb: Buf, dm: Meta, db: Buf, maxLen: int, bytes: nat, o: Drained)
    requires Inside(sb) && Inside(db) && OsReadable(sm.mode) && Unbounded(dm) && maxLen >= 0
    requires o == DrainBudget(sm, sb, dm, db, maxLen, bytes)
    ensures o.src == Buf(sb.data, sb.pos + Min(maxLen, Remaining(sb)), sb.eof || maxLen > Remaining(sb))
    ensures o.bytes == bytes + Min(maxLen, Remaining(sb))
    decreases maxLen
  {
    if maxLen > 0 && !sb.eof {
      var p := DrainPass(sm, sb, dm, db, Request(maxLen));
      DrainPassCopies(sm, sb, dm, db, Request(maxLen));
      if p.written != 0 {
        DrainBudgetCopiesPrefix(sm, p.src, dm, p.dst, maxLen - p.length, bytes + p.written, o);
        MinSplit(Request(maxLen), maxLen, |sb.data| - sb.pos);
      }
    }
  }

  /** In the same setting the sink ends as one `fwrite` of the bytes copied
      would leave it. */
  lemma {:induction false} DrainBudgetFillsSink(sm: Meta, sb: Buf, dm: Meta, db: Buf, maxLen: int, bytes: nat, o: Drained)
    requires Inside(sb) && Inside(db) && OsReadable(sm.mode) && Unbounded(dm) && maxLen >= 0
    requires o == DrainBudget(sm, sb, dm, db, maxLen, bytes)
    ensures o.src.data == sb.data && sb.pos <= o.src.pos <= |sb.data|
    ensures o.dst == WriteBuf(dm, db, sb.data[sb.pos..o.src.pos]).after
    decreases maxLen
  {
    if maxLen > 0 && !sb.eof {
      var p := DrainPass(sm, sb, dm, db, Request(maxLen));
      DrainPassCopies(sm, sb, dm, db, Request(maxLen));
      if p.written != 0 {
        DrainBudgetFillsSink(sm, p.src, dm, p.dst, maxLen - p.length, bytes + p.written, o);
        WriteSplit(dm, db, sb.data, sb.pos, p.src.pos, o.src.pos);
      }
    }
  }

  /** `copyAll` from a readable source into a sink that takes every byte
      raises nothing, copies all that remains of the source, returns its
      length and leaves the source reporting its end; the sink ends as one
      `fwrite` of those bytes would leave it. */
  lemma {:induction false} CopyAllCopiesRest(sm: Meta, sb: Buf, dm: Meta, db: Buf, bytes: nat, requested: nat, passes: nat, o: Outcome)
    requires Inside(sb) && Inside(db) && OsReadable(sm.mode) && Unbounded(dm)
    requires o == CopyAllF(sm, sb, dm, db, bytes, requested, passes)
    ensures o.failure.None? && o.src == Buf(sb.data, sb.pos + Remaining(sb), true)
    ensures o.bytes == bytes + Remaining(sb)
    ensures o.dst == WriteBuf(dm, db, sb.data[sb.pos..o.src.pos]).after
    decreases |sb.data| - sb.pos, if sb.eof then 0 else 1
  {
    if !sb.eof {
      var p := TraitPass(sm, sb, dm, db, CHUNK);
      TraitPassCopies(sm, sb, dm, db, CHUNK);
      CopyAllCopiesRest(sm, p.src, dm, p.dst, bytes + p.written, requested + CHUNK, passes + 1, o);
      WriteSplit(dm, db, sb.data, sb.pos, p.src.pos, o.src.pos);
    }
  }

  /** `copyWithLimit` from a readable source into a sink that takes every
      byte raises nothing, reads and counts exactly min(budget, remaining)
      bytes, and leaves the source reporting its end exactly when the budget
      exceeded what remained. */
  lemma {:induction false} CopyLimitCopiesPrefix(sm: Meta, sb: Buf, dm: Meta, db: Buf, maxLen: int, bytes: nat, requested: nat, passes: nat, o: Outcome)
    requires Inside(sb) && Inside(db) && OsReadable(sm.mode) && Unbounded(dm) && maxLen >= 0
    requires o == CopyLimitF(sm, sb, dm, db, maxLen, bytes, requested, passes)
    ensures o.failure.None?
    ensures o.src == Buf(sb.data, sb.pos + Min(maxLen, Remaining(sb)), sb.eof || maxLen > Remaining(sb))
    ensures o.bytes == bytes + Min(maxLen, Remaining(sb))
    decreases maxLen
  {
    if maxLen > 0 && !sb.eof {
      var len := LimitRequest(maxLen);
      var p := TraitPass(sm, sb, dm, db, len);
      TraitPassCopies(sm, sb, dm, db, len);
      CopyLimitCopiesPrefix(sm, p.src, dm, p.dst, maxLen - len, bytes + p.written, requested + len, passes + 1, o);
    }
  }

  /** In the same setting the sink ends as one `fwrite` of the bytes copied
      would leave it. */
  lemma {:induction false} CopyLimitFillsSink(sm: Meta, sb: Buf, dm: Meta, db: Buf, maxLen: int, bytes: nat, requested: nat, passes: nat, o: Outcome)
    requires Inside(sb) && Inside(db) && OsReadable(sm.mode) && Unbounded(dm) && maxLen >= 0
    requires o == CopyLimitF(sm, sb, dm, db, maxLen, bytes, requested, passes)
    ensures o.src.data == sb.data && sb.pos <= o.src.pos <= |sb.data|
    ensures o.dst == WriteBuf(dm, db, sb.data[sb.pos..o.src.pos]).after
    decreases maxLen
  {
    if maxLen > 0 && !sb.eof {
      var len := LimitRequest(maxLen);
      var p := TraitPass(sm, sb, dm, db, len);
      TraitPassCopies(sm, sb, dm, db, len);
      CopyLimitFillsSink(sm, p.src, dm, p.dst, maxLen - len, bytes + p.written, requested + len, passes + 1, o);
      WriteSplit(dm, db, sb.data, sb.pos, p.src.pos, o.src.pos);
    }
  }

  /** One more pass of at most CHUNK bytes fits the ceiling count. */
  lemma PassesStep(maxLen: int, len: int)
    requires 0 < maxLen && len == LimitRequest(maxLen)
    ensures (maxLen - len + CHUNK - 1) / CHUNK + 1 <= (maxLen + CHUNK - 1) / CHUNK
  {
  }

  /** `copyWithLimit` asks for at most the budget in all, in at most
      ceil(budget / CHUNK) passes. */
  lemma {:induction false} CopyLimitRequests(sm: Meta, sb: Buf, dm: Meta, db: Buf, maxLen: int, bytes: nat, requested: nat, passes: nat, o: Outcome)
    requires Inside(sb) && Inside(db) && maxLen >= 0
    requires o == CopyLimitF(sm, sb, dm, db, maxLen, bytes, requested, passes)
    ensures requested <= o.requested <= requested + maxLen
    ensures passes <= o.passes <= passes + (maxLen + CHUNK - 1) / CHUNK
    decreases maxLen
  {
    if !sb.eof && maxLen > 0 {
      var len := LimitRequest(maxLen);
      var p := TraitPass(sm, sb, dm, db, len);
      if p.failure.None? {
        CopyLimitRequests(sm, p.src, dm, p.dst, maxLen - len, bytes + p.written, requested + len, passes + 1, o);
        PassesStep(maxLen, len);
      }
    }
  }

  /** It never reads more than it asked for, and with a zero budget reads
      and writes nothing. */
  lemma {:induction false} CopyLimitReadsRequested(sm: Meta, sb: Buf, dm: Meta, db: Buf, maxLen: int, bytes: nat, requested: nat, passes: nat, o: Outcome)
    requires Inside(sb) && Inside(db) && maxLen >= 0
    requires o == CopyLimitF(sm, sb, dm, db, maxLen, bytes, requested, passes)
    ensures o.src.data == sb.data && sb.pos <= o.src.pos <= sb.pos + (o.requested - requested)
    ensures maxLen == 0 ==> o.src == sb && o.dst == db && o.bytes == bytes
    decreases maxLen
  {
    if !sb.eof && maxLen > 0 {
      var len := LimitRequest(maxLen);
      var p := TraitPass(sm, sb, dm, db, len);
      if p.failure.None? {
        CopyLimitReadsRequested(sm, p.src, dm, p.dst, maxLen - len, bytes + p.written, requested + len, passes + 1, o);
      }
    }
  }

  /** StreamTrait's `writeFrom` from a readable source into a sink that
      takes every byte: it copies all that remains of the source when the
      budget is negative, else the first min(budget, remaining) bytes, and
      reports that count; the source then reports its end unless the budget
      was no more than what remained; the sink ends as one `fwrite` of
      those bytes would leave it. */
  lemma DrainFromCopies(sm: Meta, sb: Buf, dm: Meta, db: Buf, maxLen: int, o: Drained)
    requires Inside(sb) && Inside(db) && OsReadable(sm.mode) && Unbounded(dm)
    requires o == DrainFrom(sm, sb, dm, db, maxLen)
    ensures var k := if maxLen < 0 then Remaining(sb) else Min(maxLen, Remaining(sb));
      o.bytes == k && o.src == Buf(sb.data, sb.pos + k, sb.eof || maxLen < 0 || maxLen > Remaining(sb))
    ensures o.dst == WriteBuf(dm, db, sb.data[sb.pos..o.src.pos]).after
  {
    if maxLen < 0 {
      DrainAllCopiesRest(sm, sb, dm, db, 0, o);
    } else {
      DrainBudgetCopiesPrefix(sm, sb, dm, db, maxLen, 0, o);
      DrainBudgetFillsSink(sm, sb, dm, db, maxLen, 0, o);
    }
  }

  /** The traits' `writeFrom` in the same setting raises nothing and
      returns the same count with the same effect on both handles. */
  lemma TraitCopyFromCopies(sm: Meta, sb: Buf, dm: Meta, db: Buf, maxLen: int, o: Outcome)
    requires Inside(sb) && Inside(db) && OsReadable(sm.mode) && Unbounded(dm)
    requires o == TraitCopyFrom(sm, sb, dm, db, maxLen)
    ensures var k := if maxLen < 0 then Remaining(sb) else Min(maxLen, Remaining(sb));
      Returned(o) == Ok(k) && o.src == Buf(sb.data, sb.pos + k, sb.eof || maxLen < 0 || maxLen > Remaining(sb))
    ensures o.dst == WriteBuf(dm, db, sb.data[sb.pos..o.src.pos]).after
  {
    if maxLen < 0 {
      CopyAllCopiesRest(sm, sb, dm, db, 0, 0, 0, o);
    } else {
      CopyLimitCopiesPrefix(sm, sb, dm, db, maxLen, 0, 0, 0, o);
      CopyLimitFillsSink(sm, sb, dm, db, maxLen, 0, 0, 0, o);
    }
  }
}

=== FILE: iterators.dfy ===
/** The line iterators of both revisions. Each keeps the number of the line
    it last handed out (`key`, -1 before the first); `current()` reads the
    next line and counts it, `next()` does nothing, `valid()` is "not at the
    end", and `rewind()` resets the count, moving the cursor back first only
    where the class says so. The ghost `yielded` records the lines handed out
    since the last rewind, so that `key() == |yielded| - 1` is the invariant. */
module Iterators {
  import opened Wrappers
  import opened Php
  import opened RawHandle
  import opened LineRules
  import opened CopySpec
  import opened Streams
  import ReadTrait
  import SeekableMethods
  import Wrapper
  import SeekableStreamMethods

  /** What `$stream->readLine()` does on an attached `Stream`: Readable and
      Seekable use ReadTrait's rule with PHP_EOL, the other classes
      Stream's rule with the configured terminator. */
  function DispatchedLine(k: StreamClass, readable: bool, eol: string, m: Meta, b: Buf): Step<Result<Option<string>>>
    requires Inside(b)
  {
    if UsesReadTrait(k) then
      var t := ReadTrait.LineStep(m, b, PHP_EOL);
      match t.out
      case Ok(line) => Step(Ok(Some(line)), t.after)
      case Err(e) => Step(Err(e), t.after)
    else if !readable then Step(Err(Runtime("Stream isn't readable!")), b)
    else
      var g := GetLineBuf(m, b, eol);
      Step(Ok(StreamLine(g.out, eol)), g.after)
  }

  /** The two rules agree on a line that ends with a terminator and is not
      PHP-empty; they part on "0", on an empty line and at the end, where
      ReadTrait hands out the terminator and Stream hands out false. */
  lemma ReadLineRulesAgree(m: Meta, b: Buf, eol: string)
    requires Inside(b) && OsReadable(m.mode)
    ensures var g := GetLineBuf(m, b, eol);
      g.out.Some? && !Falsy(g.out.value) ==>
        StreamLine(g.out, eol) == Some(ReadTrait.LineStep(m, b, eol).out.value)
    ensures AtEnd(b) ==>
      StreamLine(GetLineBuf(m, b, eol).out, eol).None? && ReadTrait.LineStep(m, b, eol).out == Ok(eol)
  {
  }

  /** `$stream->readLine()` as PHP dispatches it. */
  method ReadLineOf(s: Stream) returns (r: Result<Option<string>>)
    requires s.Valid() && (UsesReadTrait(s.kind) ==> s.stream != null)
    modifies s.stream
    ensures s.Valid()
    ensures s.stream == null ==> r == Err(Runtime("Stream isn't readable!"))
    ensures s.stream != null ==>
      Step(r, s.stream.State()) == DispatchedLine(s.kind, s.readable, s.eol, s.stream.meta, old(s.stream.State()))
  {
    if UsesReadTrait(s.kind) {
      var line := ReadTrait.ReadLine(s);
      r := if line.Ok? then Ok(Some(line.value)) else Err(line.error);
    } else {
      r := s.ReadLine(None);
    }
  }

  /** `$stream->eof()` on a `Stream`, whichever class answers it: the
      handle's end-of-file indicator, and true once detached. */
  function EofOf(s: Stream): (r: bool)
    requires UsesReadTrait(s.kind) ==> s.stream != null && Inside(s.stream.State())
    reads s, s.stream
    ensures s.stream == null ==> r
    ensures s.stream != null ==> (r <==> s.stream.Feof())
    ensures s.stream != null && Inside(s.stream.State()) && !r ==> Remaining(s.stream.State()) == |s.stream.data| - s.stream.pos
  {
    if UsesReadTrait(s.kind) then ReadTrait.Eof(s) else s.Eof()
  }

  /** StreamIterator: refuses an unreadable stream; rewinds a seekable one. */
  class StreamIterator {
    const stream: Stream
    var currentLine: int
    ghost var yielded: seq<Option<string>>

    ghost predicate Valid()
      reads this
    {
      currentLine == |yielded| - 1
    }

    constructor Init(s: Stream)
      ensures stream == s && Valid() && yielded == []
    {
      stream := s;
      currentLine := -1;
      yielded := [];
    }

    /** `new StreamIterator($stream)`. */
    static method New(s: Stream) returns (r: Result<StreamIterator>)
      ensures !s.readable ==> r == Err(Runtime("Stream can't be read!"))
      ensures s.readable ==> r.Ok? && fresh(r.value) && r.value.stream == s && r.value.Valid() && r.value.Key() == -1
    {
      if !s.readable {
        return Err(Runtime("Stream can't be read!"));
      }
      var it := new StreamIterator.Init(s);
      return Ok(it);
    }

    /** `current()`: the next line; the count moves only when no exception
        was raised. */
    method Current() returns (r: Result<Option<string>>)
      requires Valid() && stream.Valid() && (UsesReadTrait(stream.kind) ==> stream.stream != null)
      modifies this, stream.stream
      ensures Valid() && stream.Valid()
      ensures stream.stream == null ==> r == Err(Runtime("Stream isn't readable!"))
      ensures stream.stream != null ==>
        Step(r, stream.stream.State()) == DispatchedLine(stream.kind, stream.readable, stream.eol, stream.stream.meta, old(stream.stream.State()))
      ensures r.Ok? ==> yielded == old(yielded) + [r.value]
      ensures r.Err? ==> yielded == old(yielded)
    {
      r := ReadLineOf(stream);
      if r.Ok? {
        currentLine := currentLine + 1;
        yielded := yielded + [r.value];
      }
    }

    /** `key()`: the number of the line last handed out. */
    function Key(): (r: int)
      requires Valid()
      reads this
      ensures r + 1 == |yielded|
    {
      currentLine
    }

    /** `next()`: the read happens in `current()`. */
    method Next() {
    }

    /** `rewind()`: back to the first byte when the stream is seekable, and
        the count restarts. */
    method Rewind()
      requires stream.Valid()
      modifies this, stream.stream
      ensures Valid() && stream.Valid() && yielded == [] && Key() == -1
      ensures stream.seekable ==> stream.stream.State() == Buf(old(stream.stream.data), 0, false)
      ensures !stream.seekable && stream.stream != null ==> stream.stream.State() == old(stream.stream.State())
    {
      if stream.seekable {
        var _ := stream.Rewind();
      }
      currentLine := -1;
      yielded := [];
    }

    /** `valid()`: no read has yet run into the end of the stream. */
    function HasLine(): (r: bool)
      requires UsesReadTrait(stream.kind) ==> stream.stream != null && Inside(stream.stream.State())
      reads this, stream, stream.stream
      ensures r <==> stream.stream != null && !stream.stream.Feof()
    {
      !EofOf(stream)
    }
  }

  /** ReadIterator: StreamIterator without the constructor check. */
  class ReadIterator {
    const stream: Stream
    var currentLine: int
    ghost var yielded: seq<Option<string>>

    ghost predicate Valid()
      reads this
    {
      currentLine == |yielded| - 1
    }

    constructor (s: Stream)
      ensures stream == s && Valid() && yielded == [] && Key() == -1
    {
      stream := s;
      currentLine := -1;
      yielded := [];
    }

    method Current() returns (r: Result<Option<string>>)
      requires Valid() && stream.Valid() && (UsesReadTrait(stream.kind) ==> stream.stream != null)
      modifies this, stream.stream
      ensures Valid() && stream.Valid()
      ensures stream.stream == null ==> r == Err(Runtime("Stream isn't readable!"))
      ensures stream.stream != null ==>
        Step(r, stream.stream.State()) == DispatchedLine(stream.kind, stream.readable, stream.eol, stream.stream.meta, old(stream.stream.State()))
      ensures r.Ok? ==> yielded == old(yielded) + [r.value]
      ensures r.Err? ==> yielded == old(yielded)
    {
      r := ReadLineOf(stream);
      if r.Ok? {
        currentLine := currentLine + 1;
        yielded := yielded + [r.value];
      }
    }

    function Key(): (r: int)
      requires Valid()
      reads this
      ensures r + 1 == |yielded|
    {
      currentLine
    }

    method Next() {
    }

    method Rewind()
      requires stream.Valid()
      modifies this, stream.stream
      ensures Valid() && stream.Valid() && yielded == [] && Key() == -1
      ensures stream.seekable ==> stream.stream.State() == Buf(old(stream.stream.data), 0, false)
      ensures !stream.seekable && stream.stream != null ==> stream.stream.State() == old(stream.stream.State())
    {
      if stream.seekable {
        var _ := stream.Rewind();
      }
      currentLine := -1;
      yielded := [];
    }

    function HasLine(): (r: bool)
      requires UsesReadTrait(stream.kind) ==> stream.stream != null && Inside(stream.stream.State())
      reads this, stream, stream.stream
      ensures r <==> stream.stream != null && !stream.stream.Feof()
    {
      !EofOf(stream)
    }
  }

  /** Read\Iterator, over a Readable or a Seekable: ReadTrait's lines, and a
      rewind that only restarts the count. */
  class ReadableIterator {
    const stream: Stream
    var currentLine: int
    ghost var yielded: seq<string>

    ghost predicate Valid()
      reads this
    {
      currentLine == |yielded| - 1 && UsesReadTrait(stream.kind)
    }

    constructor (s: Stream)
      requires UsesReadTrait(s.kind)
      ensures stream == s && Valid() && yielded == [] && Key() == -1
    {
      stream := s;
      currentLine := -1;
      yielded := [];
    }

    method Current() returns (r: Result<string>)
      requires Valid() && stream.Valid() && stream.stream != null
      modifies this, stream.stream
      ensures Valid() && stream.Valid()
      ensures Step(r, stream.stream.State()) == ReadTrait.LineStep(stream.stream.meta, old(stream.stream.State()), PHP_EOL)
      ensures r.Ok? ==> yielded == old(yielded) + [r.value]
      ensures r.Err? ==> yielded == old(yielded)
    {
      r := ReadTrait.ReadLine(stream);
      if r.Ok? {
        currentLine := currentLine + 1;
        yielded := yielded + [r.value];
      }
    }

    function Key(): (r: int)
      requires Valid()
      reads this
      ensures r + 1 == |yielded|
    {
      currentLine
    }

    method Next() {
    }

    method Rewind()
      requires Valid()
      modifies this
      ensures Valid() && yielded == [] && Key() == -1
    {
      currentLine := -1;
      yielded := [];
    }

    function HasLine(): (r: bool)
      requires Valid() && stream.stream != null && Inside(stream.stream.State())
      reads this, stream, stream.stream
      ensures r <==> !stream.stream.Feof()
      ensures r ==> Remaining(stream.stream.State()) == |stream.stream.data| - stream.stream.pos
    {
      !ReadTrait.Eof(stream)
    }
  }

  /** Seek\Iterator, over a Seekable: Read\Iterator whose rewind first puts
      the cursor on the first byte. */
  class SeekableIterator {
    const stream: Stream
    var currentLine: int
    ghost var yielded: seq<string>

    ghost predicate Valid()
      reads this
    {
      currentLine == |yielded| - 1 && stream.kind == SeekableClass
    }

    constructor (s: Stream)
      requires s.kind == SeekableClass
      ensures stream == s && Valid() && yielded == [] && Key() == -1
    {
      stream := s;
      currentLine := -1;
      yielded := [];
    }

    method Current() returns (r: Result<string>)
      requires Valid() && stream.Valid() && stream.stream != null
      modifies this, stream.stream
      ensures Valid() && stream.Valid()
      ensures Step(r, stream.stream.State()) == ReadTrait.LineStep(stream.stream.meta, old(stream.stream.State()), PHP_EOL)
      ensures r.Ok? ==> yielded == old(yielded) + [r.value]
      ensures r.Err? ==> yielded == old(yielded)
    {
      r := ReadTrait.ReadLine(stream);
      if r.Ok? {
        currentLine := currentLine + 1;
        yielded := yielded + [r.value];
      }
    }

    function Key(): (r: int)
      requires Valid()
      reads this
      ensures r + 1 == |yielded|
    {
      currentLine
    }

    method Next() {
    }

    /** `rewind()`: `cursorBegin()`, then the count restarts. */
    method Rewind()
      requires Valid() && stream.Valid() && stream.stream != null
      modifies this, stream.stream
      ensures Valid() && stream.Valid() && yielded == [] && Key() == -1
      ensures stream.stream.State() == Buf(old(stream.stream.data), 0, false)
    {
      SeekableMethods.CursorBegin(stream);
      currentLine := -1;
      yielded := [];
    }

    function HasLine(): (r: bool)
      requires Valid() && stream.stream != null && Inside(stream.stream.State())
      reads this, stream, stream.stream
      ensures r <==> !stream.stream.Feof()
      ensures r ==> Remaining(stream.stream.State()) == |stream.stream.data| - stream.stream.pos
    {
      !ReadTrait.Eof(stream)
    }
  }

  /** The readable stream trait's `readLine()` on a wrapper: that trait is
      not part of this model, and its rule is taken to be ReadTrait's. */
  method WrapperReadLine(w: Wrapper.StreamWrapper) returns (r: Result<string>)
    requires w.Valid() && w.resource != null
    modifies w.resource
    ensures w.Valid()
    ensures Step(r, w.resource.State()) == ReadTrait.LineStep(w.resource.meta, old(w.resource.State()), PHP_EOL)
  {
    if !OsReadable(w.resource.meta.mode) {
      return Err(IoFailure("stream_get_line"));
    }
    var line := w.resource.StreamGetLine(PHP_EOL);
    return Ok(TraitLine(line, PHP_EOL));
  }

  /** ReadableStreamIterator, over a wrapper with the readable stream trait:
      a rewind that only restarts the count. */
  class ReadableStreamIterator {
    const stream: Wrapper.StreamWrapper
    var currentLine: int
    ghost var yielded: seq<string>

    ghost predicate Valid()
      reads this
    {
      currentLine == |yielded| - 1 && Wrapper.UsesReadableTrait(stream.kind)
    }

    constructor (w: Wrapper.StreamWrapper)
      requires Wrapper.UsesReadableTrait(w.kind)
      ensures stream == w && Valid() && yielded == [] && Key() == -1
    {
      stream := w;
      currentLine := -1;
      yielded := [];
    }

    method Current() returns (r: Result<string>)
      requires Valid() && stream.Valid() && stream.resource != null
      modifies this, stream.resource
      ensures Valid() && stream.Valid()
      ensures Step(r, stream.resource.State()) == ReadTrait.LineStep(stream.resource.meta, old(stream.resource.State()), PHP_EOL)
      ensures r.Ok? ==> yielded == old(yielded) + [r.value]
      ensures r.Err? ==> yielded == old(yielded)
    {
      r := WrapperReadLine(stream);
      if r.Ok? {
        currentLine := currentLine + 1;
        yielded := yielded + [r.value];
      }
    }

    function Key(): (r: int)
      requires Valid()
      reads this
      ensures r + 1 == |yielded|
    {
      currentLine
    }

    method Next() {
    }

    method Rewind()
      requires Valid()
      modifies this
      ensures Valid() && yielded == [] && Key() == -1
    {
      currentLine := -1;
      yielded := [];
    }

    /** `valid()`: feof of the wrapper's handle, negated. */
    function HasLine(): (r: bool)
      requires stream.resource != null && Inside(stream.resource.State())
      reads this, stream, stream.resource
      ensures r <==> !stream.resource.Feof()
      ensures r ==> Remaining(stream.resource.State()) == |stream.resource.data| - stream.resource.pos
    {
      !stream.resource.Feof()
    }
  }

  /** SeekableStreamIterator, over a SeekableStream. Its rewind calls
      `cursorBegin()`, which SeekableStream does not define; the model takes
      the evident intent, `seekBegin()`. */
  class SeekableStreamIterator {
    const stream: Wrapper.StreamWrapper
    var currentLine: int
    ghost var yielded: seq<string>

    ghost predicate Valid()
      reads this
    {
      currentLine == |yielded| - 1 && stream.kind == Capabilities.SeekableStream
    }

    constructor (w: Wrapper.StreamWrapper)
      requires w.kind == Capabilities.SeekableStream
      ensures stream == w && Valid() && yielded == [] && Key() == -1
    {
      stream := w;
      currentLine := -1;
      yielded := [];
    }

    method Current() returns (r: Result<string>)
      requires Valid() && stream.Valid() && stream.resource != null
      modifies this, stream.resource
      ensures Valid() && stream.Valid()
      ensures Step(r, stream.resource.State()) == ReadTrait.LineStep(stream.resource.meta, old(stream.resource.State()), PHP_EOL)
      ensures r.Ok? ==> yielded == old(yielded) + [r.value]
      ensures r.Err? ==> yielded == old(yielded)
    {
      r := WrapperReadLine(stream);
      if r.Ok? {
        currentLine := currentLine + 1;
        yielded := yielded + [r.value];
      }
    }

    function Key(): (r: int)
      requires Valid()
      reads this
      ensures r + 1 == |yielded|
    {
      currentLine
    }

    method Next() {
    }

    method Rewind()
      requires Valid() && stream.Valid() && stream.resource != null
      modifies this, stream.resource
      ensures Valid() && stream.Valid() && yielded == [] && Key() == -1
      ensures stream.resource.State() == Buf(old(stream.resource.data), 0, false)
    {
      SeekableStreamMethods.SeekBegin(stream);
      currentLine := -1;
      yielded := [];
    }

    function HasLine(): (r: bool)
      requires stream.resource != null && Inside(stream.resource.State())
      reads this, stream, stream.resource
      ensures r <==> !stream.resource.Feof()
      ensures r ==> Remaining(stream.resource.State()) == |stream.resource.data| - stream.resource.pos
    {
      !stream.resource.Feof()
    }
  }
}

=== FILE: line_rules.dfy ===
/** The string rules around line-oriented reads and writes. */
module LineRules {
  import opened Wrappers
  import opened Php
  import opened RawHandle

  /** `writeLine`'s rule: the terminator is appended unless the line already
      ends with it. PHP compares `substr($line, -strlen($eol))` with `$eol`;
      for an empty terminator that substring is the whole line, and appending
      "" changes nothing, so an exact suffix test gives the same string. */
  function WithEol(line: string, eol: string): string {
    if EndsWith(line, eol) then line else line + eol
  }

  lemma WithEolSpec(line: string, eol: string)
    ensures EndsWith(WithEol(line, eol), eol)
    ensures WithEol(line, eol) == line <==> EndsWith(line, eol)
    ensures !EndsWith(line, eol) ==> WithEol(line, eol) == line + eol
    ensures WithEol(WithEol(line, eol), eol) == WithEol(line, eol)
  {
    if !EndsWith(line, eol) {
      var r := line + eol;
      assert r[|r| - |eol|..] == eol;
    }
  }

  /** Stream.php's `readLine`: the fetched line gets the terminator only when
      it is truthy; a false fetch stays false. */
  function StreamLine(fetched: Option<string>, eol: string): Option<string> {
    match fetched
    case None => None
    case Some(line) => if Falsy(line) then Some(line) else Some(line + eol)
  }

  /** ReadTrait's `readLine`: `$line . $eol`, where false reads as "". */
  function TraitLine(fetched: Option<string>, eol: string): string {
    match fetched
    case None => eol
    case Some(line) => line + eol
  }

  /** What ReadTrait's rule returns always ends with the terminator. When
      `stream_get_line` found one, it is exactly the bytes consumed; when it
      found none, the terminator is appended although none was consumed:
      after a full LINE_MAX chunk, or after the unterminated rest, where the
      end-of-file indicator is then set. */
  lemma TraitLineIsConsumedLine(m: Meta, b: Buf, eol: string)
    requires Inside(b)
    ensures EndsWith(TraitLine(GetLineBuf(m, b, eol).out, eol), eol)
    ensures var g := GetLineBuf(m, b, eol);
      var consumed := b.data[b.pos..g.after.pos];
      g.out.Some? ==>
        TraitLine(g.out, eol) == consumed
        || (consumed == g.out.value && (|consumed| == LINE_MAX || (AtEnd(g.after) && g.after.eof)))
    ensures var g := GetLineBuf(m, b, eol);
      g.out.Some? && |g.out.value| < LINE_MAX && !AtEnd(g.after) ==> TraitLine(g.out, eol) == b.data[b.pos..g.after.pos]
  {
    var g := GetLineBuf(m, b, eol);
    var t := TraitLine(g.out, eol);
    assert t[|t| - |eol|..] == eol;
    if g.out.Some? {
      GetLineSplitsAtFirstEol(m, b, eol);
    }
  }

  /** Stream.php's rule returns the consumed bytes for a truthy line ended by
      the terminator, but a line "0" or an empty line loses its terminator:
      on "0\nx" it returns "0" after consuming "0\n". */
  lemma StreamLineDropsEolOfFalsyLine(m: Meta)
    requires OsReadable(m.mode)
    ensures var b := Buf("0\nx", 0, false);
      var g := GetLineBuf(m, b, "\n");
      g.after.pos == 2 && b.data[..2] == "0\n" && StreamLine(g.out, "\n") == Some("0")
  {
    var b := Buf("0\nx", 0, false);
    assert b.data[..3] == b.data;
    assert b.data[0] == '0' && b.data[0..1] != "\n";
    assert b.data[1..2] == "\n";
    assert FindEol(b.data, 1, "\n") == Some(1);
    assert FindEol(b.data, 0, "\n") == Some(1);
    assert LineEnd(b, "\n") == Some(1);
  }

  /** Stream.php's `readLine` on a readable handle, against the bytes
      `stream_get_line` consumed: false exactly at the end of the bytes;
      when a terminator was found, the consumed bytes, less the terminator
      for a PHP-falsy line; when none was found (a LINE_MAX chunk, or the
      unterminated rest, which sets the end-of-file indicator), the consumed
      bytes with a terminator appended that the stream never held, unless
      the line is PHP-falsy. */
  lemma StreamLineSpec(m: Meta, b: Buf, eol: string)
    requires Inside(b) && OsReadable(m.mode)
    ensures StreamLine(GetLineBuf(m, b, eol).out, eol).None? <==> AtEnd(b)
    ensures var g := GetLineBuf(m, b, eol);
      var consumed := b.data[b.pos..g.after.pos];
      g.out.Some? ==>
        var line := g.out.value;
        (consumed == line + eol && StreamLine(g.out, eol) == Some(if Falsy(line) then line else consumed))
        || (consumed == line && (|line| == LINE_MAX || (AtEnd(g.after) && g.after.eof))
            && StreamLine(g.out, eol) == Some(if Falsy(line) then consumed else consumed + eol))
  {
    if GetLineBuf(m, b, eol).out.Some? {
      GetLineSplitsAtFirstEol(m, b, eol);
    }
  }
}

=== FILE: php.dfy ===
/** The few PHP string rules and constants the stream layer relies on. */
module Php {
  import opened Wrappers

  /** PHP_EOL on the platforms the library targets. */
  const PHP_EOL: string := "\n"

  /** StreamInterface declares DEFAULT_READ outside this layer; 8192 is
      assumed, and every property proved here only uses that it is positive. */
  const DEFAULT_READ: nat := 8192

  /** PHP's `empty($s)` and falsy `if ($s)` on strings: only "" and "0". */
  predicate Falsy(s: string) {
    s == "" || s == "0"
  }

  /** `\coalesce($x, $default)` and `is_null($x) ? $default : $x`. */
  function Coalesce(x: Option<string>, default: string): string {
    match x
    case Some(v) => v
    case None => default
  }

  predicate EndsWith(s: string, suffix: string) {
    |suffix| <= |s| && s[|s| - |suffix|..] == suffix
  }

  function LowerAscii(c: char): char {
    if 'A' <= c <= 'Z' then (c as int + 32) as char else c
  }

  function Lower(s: string): string {
    seq(|s|, i requires 0 <= i < |s| => LowerAscii(s[i]))
  }

  /** `needle` (given in lower case) occurs in `hay` at `j`, ignoring ASCII case. */
  predicate MatchAt(hay: string, needle: string, j: int) {
    0 <= j && j + |needle| <= |hay| && Lower(hay[j..j + |needle|]) == needle
  }

  /** The search behind `preg_match('/needle/i', $hay)` and `stripos($hay, needle) !== false`,
      scanning from offset `i`. */
  function ContainsFrom(hay: string, needle: string, i: nat): (r: bool)
    requires i <= |hay|
    ensures r <==> exists j :: i <= j <= |hay| && MatchAt(hay, needle, j)
    decreases |hay| - i
  {
    if MatchAt(hay, needle, i) then true
    else if i == |hay| then false
    else ContainsFrom(hay, needle, i + 1)
  }

  function ContainsIgnoreCase(hay: string, needle: string): bool {
    ContainsFrom(hay, needle, 0)
  }
}

=== FILE: raw_handle.dfy ===
/** The raw PHP stream resource, modelled as an in-memory byte buffer with a
    cursor. The open mode and the metadata the wrappers inspect are fixed at
    creation; the bytes, the cursor, the end-of-file indicator and the closed
    state change in place. As in PHP's memory streams, the end-of-file
    indicator is set by a read that asks for more than is left and cleared
    only by a successful seek; truncation pulls the cursor back to the new
    length. A seek target outside [0, length] fails and leaves the cursor
    where it was. */
module RawHandle {
  import opened Wrappers

  /** What `stream_get_meta_data`, `get_resource_type` and `stream_is_local`
      report, plus an optional capacity beyond which writes are cut short. */
  datatype Meta = Meta(mode: string, resType: string, seekable: bool, local: bool, capacity: Option<nat>)

  /** The changing part of a handle: its bytes, its cursor and the
      end-of-file indicator that `feof` reports. */
  datatype Buf = Buf(data: string, pos: nat, eof: bool)

  predicate Inside(b: Buf) {
    b.pos <= |b.data|
  }

  /** The cursor has reached the end of the bytes. */
  predicate AtEnd(b: Buf) {
    b.pos >= |b.data|
  }

  /** What a primitive returned and the buffer afterwards. */
  datatype Step<+T> = Step(out: T, after: Buf)

  datatype Whence = SeekSet | SeekCur | SeekEnd

  /** What the operating system grants for an fopen mode: the letter first,
      then '+', 'b' or 't' in any order. */
  predicate OsReadable(mode: string) {
    |mode| > 0 && (mode[0] == 'r' || '+' in mode)
  }

  predicate OsWritable(mode: string) {
    |mode| > 0 && (mode[0] in "waxc" || '+' in mode)
  }

  predicate OsAppends(mode: string) {
    |mode| > 0 && mode[0] == 'a'
  }

  function Min(a: int, b: int): int {
    if a <= b then a else b
  }

  /** `s` written over `d` from offset `at`, growing `d` when it runs past the end. */
  function Overwrite(d: string, at: nat, s: string): (r: string)
    requires at <= |d|
  {
    d[..at] + s + (if at + |s| < |d| then d[at + |s|..] else [])
  }

  /** `fread($h, $n)`: up to n bytes from the cursor; false for n <= 0 or a
      handle not opened for reading. Asking for more than is left sets the
      end-of-file indicator. */
  function ReadBuf(m: Meta, b: Buf, n: int): (r: Step<Option<string>>)
    requires Inside(b)
    ensures Inside(r.after) && r.after.data == b.data
    ensures r.out.None? <==> n <= 0 || !OsReadable(m.mode)
    ensures r.out.None? ==> r.after == b
    ensures r.out.Some? ==> |r.out.value| == Min(n, |b.data| - b.pos)
    ensures r.out.Some? ==> r.after.pos == b.pos + |r.out.value| && r.out.value == b.data[b.pos..r.after.pos]
    ensures r.out.Some? ==> (r.after.eof <==> b.eof || n > |b.data| - b.pos)
  {
    if n <= 0 || !OsReadable(m.mode) then Step(None, b)
    else
      var e := Min(b.pos + n, |b.data|);
      Step(Some(b.data[b.pos..e]), Buf(b.data, e, b.eof || n > |b.data| - b.pos))
  }

  /** Where the next write lands: at the end in append mode, else at the cursor. */
  function WriteAt(m: Meta, b: Buf): nat
    requires Inside(b)
  {
    if OsAppends(m.mode) then |b.data| else b.pos
  }

  /** How many of `len` bytes fit from offset `at` under the handle's capacity. */
  function Accepts(m: Meta, at: nat, len: nat): (n: nat)
    ensures n <= len
    ensures m.capacity.None? ==> n == len
  {
    match m.capacity
    case None => len
    case Some(c) => if c <= at then 0 else Min(len, c - at)
  }

  /** `fwrite($h, $s)`: the count of bytes written, possibly short; false for
      a handle not opened for writing. An empty string is 0 before the
      handle is looked at, and changes nothing. */
  function WriteBuf(m: Meta, b: Buf, s: string): (r: Step<Option<nat>>)
    requires Inside(b)
    ensures Inside(r.after) && r.after.eof == b.eof
    ensures r.out.None? <==> !OsWritable(m.mode) && |s| > 0
    ensures r.out.None? || |s| == 0 ==> r.after == b
    ensures r.out.Some? ==> r.out.value <= |s|
    ensures r.out.Some? && m.capacity.None? ==> r.out.value == |s|
  {
    if |s| == 0 then Step(Some(0), b)
    else if !OsWritable(m.mode) then Step(None, b)
    else
      var at := WriteAt(m, b);
      var n := Accepts(m, at, |s|);
      Step(Some(n), Buf(Overwrite(b.data, at, s[..n]), at + n, b.eof))
  }

  /** The offset `fseek` aims at. */
  function SeekTarget(b: Buf, offset: int, whence: Whence): int {
    match whence
    case SeekSet => offset
    case SeekCur => b.pos + offset
    case SeekEnd => |b.data| + offset
  }

  /** `fseek`: 0, the cursor moved and the end-of-file indicator cleared,
      or -1 and nothing changed. */
  function SeekBuf(m: Meta, b: Buf, offset: int, whence: Whence): (r: Step<int>)
    requires Inside(b)
    ensures Inside(r.after) && r.after.data == b.data
    ensures r.out == 0 || r.out == -1
    ensures r.out == 0 <==> m.seekable && 0 <= SeekTarget(b, offset, whence) <= |b.data|
    ensures r.out == 0 ==> r.after.pos == SeekTarget(b, offset, whence) && !r.after.eof
    ensures r.out == -1 ==> r.after == b
  {
    var t := SeekTarget(b, offset, whence);
    if m.seekable && 0 <= t <= |b.data| then Step(0, Buf(b.data, t, false)) else Step(-1, b)
  }

  function Resize(d: string, size: nat): (r: string)
    ensures |r| == size
    ensures forall i :: 0 <= i < size && i < |d| ==> r[i] == d[i]
  {
    if size <= |d| then d[..size] else d + seq(size - |d|, _ => '\0')
  }

  /** `ftruncate`: true and the bytes cut or zero-padded to `size`; false on a
      handle not opened for writing, a negative size or one over capacity. */
  function TruncateBuf(m: Meta, b: Buf, size: int): (r: Step<bool>)
    requires Inside(b)
    ensures Inside(r.after) && r.after.eof == b.eof
    ensures r.out ==> |r.after.data| == size && r.after.pos == Min(b.pos, size)
    ensures !r.out ==> r.after == b
  {
    if !OsWritable(m.mode) || size < 0 || (m.capacity.Some? && size > m.capacity.value) then Step(false, b)
    else Step(true, Buf(Resize(b.data, size), Min(b.pos, size), b.eof))
  }

  /** `eol` occurs in `d` at offset `j`. */
  predicate EolAt(d: string, j: int, eol: string) {
    0 <= j && j + |eol| <= |d| && d[j..j + |eol|] == eol
  }

  /** The first offset at or after `from` where `eol` occurs, if any. */
  function FindEol(d: string, from: nat, eol: string): (r: Option<nat>)
    requires |eol| > 0 && from <= |d|
    ensures r.Some? ==> from <= r.value && EolAt(d, r.value, eol)
    ensures r.Some? ==> forall j :: from <= j < r.value ==> !EolAt(d, j, eol)
    ensures r.None? ==> forall j :: from <= j ==> !EolAt(d, j, eol)
    decreases |d| - from
  {
    if from + |eol| > |d| then None
    else if d[from..from + |eol|] == eol then Some(from)
    else FindEol(d, from + 1, eol)
  }

  /** The most `stream_get_line` returns when it is given a length of 0:
      PHP's default chunk size. */
  const LINE_MAX: nat := 8192

  /** How many bytes `stream_get_line` searches for a terminator: the rest,
      but no more than LINE_MAX. */
  function Window(b: Buf): (w: nat)
    requires Inside(b)
    ensures w <= LINE_MAX && b.pos + w <= |b.data|
    ensures w == LINE_MAX || b.pos + w == |b.data|
  {
    Min(|b.data| - b.pos, LINE_MAX)
  }

  /** Where the first `eol` that ends within the window starts, if any. An
      empty `eol` is never found. */
  function LineEnd(b: Buf, eol: string): (r: Option<nat>)
    requires Inside(b)
    ensures r.Some? ==> b.pos <= r.value && r.value + |eol| <= b.pos + Window(b) && |eol| > 0
    ensures r.Some? ==> b.data[r.value..r.value + |eol|] == eol
    ensures var e := if r.Some? then r.value else b.pos + Window(b);
      |eol| > 0 ==> forall j :: b.pos <= j && j + |eol| <= e ==> !EolAt(b.data, j, eol)
  {
    if eol == "" then None
    else
      var w := Window(b);
      var r := FindEol(b.data[..b.pos + w], b.pos, eol);
      var e := if r.Some? then r.value else b.pos + w;
      forall j | b.pos <= j && j + |eol| <= e
        ensures !EolAt(b.data, j, eol)
      {
        EolAtPrefix(b.data, b.pos + w, j, eol);
      }
      if r.Some? then EolAtPrefix(b.data, b.pos + w, r.value, eol); r else r
  }

  /** `stream_get_line($h, 0, $eol)`. It looks for the first `eol` that ends
      within the next LINE_MAX bytes; when there is one, the bytes before it
      are returned and the terminator is consumed. Otherwise LINE_MAX bytes
      are returned when that many are left. With fewer left and no
      terminator, the search runs into the end: the end-of-file indicator is
      set and the rest is returned, or false when nothing is left. A handle
      not opened for reading gives false and is left as it was. */
  function GetLineBuf(m: Meta, b: Buf, eol: string): (r: Step<Option<string>>)
    requires Inside(b)
    ensures Inside(r.after) && r.after.data == b.data
    ensures r.out.None? <==> !OsReadable(m.mode) || AtEnd(b)
    ensures r.out.None? ==> r.after.pos == b.pos && (r.after.eof <==> b.eof || OsReadable(m.mode))
    ensures r.out.Some? ==> b.pos < r.after.pos && |r.out.value| <= LINE_MAX
    ensures r.out.Some? && |r.out.value| == LINE_MAX ==> r.after.eof == b.eof
  {
    if !OsReadable(m.mode) then Step(None, b)
    else
      var w := Window(b);
      match LineEnd(b, eol)
      case Some(i) => Step(Some(b.data[b.pos..i]), Buf(b.data, i + |eol|, b.eof))
      case None =>
        if w == LINE_MAX then Step(Some(b.data[b.pos..b.pos + w]), Buf(b.data, b.pos + w, b.eof))
        else if w == 0 then Step(None, Buf(b.data, b.pos, true))
        else Step(Some(b.data[b.pos..]), Buf(b.data, |b.data|, true))
  }

  /** `stream_get_contents`: everything from the cursor to the end, which
      it reads until the end-of-file indicator is set. */
  function ContentsBuf(m: Meta, b: Buf): (r: Step<Option<string>>)
    requires Inside(b)
    ensures Inside(r.after) && r.after.data == b.data
    ensures r.out.Some? <==> OsReadable(m.mode)
    ensures r.out.Some? ==> r.out.value == b.data[b.pos..] && AtEnd(r.after) && r.after.eof
    ensures r.out.None? ==> r.after == b
  {
    if OsReadable(m.mode) then Step(Some(b.data[b.pos..]), Buf(b.data, |b.data|, true)) else Step(None, b)
  }

  /** A line fetched by `stream_get_line` is exactly the bytes it consumed,
      less the terminator when one was found. When none was found, the line
      is LINE_MAX bytes long, or it is the whole rest and the end-of-file
      indicator is set. */
  lemma GetLineSplitsAtFirstEol(m: Meta, b: Buf, eol: string)
    requires Inside(b)
    requires GetLineBuf(m, b, eol).out.Some?
    ensures var r := GetLineBuf(m, b, eol);
      var line := r.out.value;
      b.pos < r.after.pos
      && (b.data[b.pos..r.after.pos] == line + eol
          || (b.data[b.pos..r.after.pos] == line && (|line| == LINE_MAX || (AtEnd(r.after) && r.after.eof))))
  {
    match LineEnd(b, eol)
    case Some(i) =>
      assert b.data[b.pos..i + |eol|] == b.data[b.pos..i] + b.data[i..i + |eol|];
    case None =>
  }

  /** The line `stream_get_line` hands out holds no terminator: the one it
      found, if any, is the first. */
  lemma FetchedLineHoldsNoEol(m: Meta, b: Buf, eol: string)
    requires Inside(b) && |eol| > 0
    requires GetLineBuf(m, b, eol).out.Some?
    ensures var line := GetLineBuf(m, b, eol).out.value;
      forall j :: 0 <= j && j + |eol| <= |line| ==> !EolAt(line, j, eol)
  {
    var r := LineEnd(b, eol);
    var e := if r.Some? then r.value else b.pos + Window(b);
    assert GetLineBuf(m, b, eol).out.value == b.data[b.pos..e];
    NoEolInSlice(b.data, b.pos, e, eol);
  }

  /** A slice free of `eol` occurrences in the whole holds none itself. */
  lemma NoEolInSlice(d: string, lo: nat, e: nat, eol: string)
    requires lo <= e <= |d|
    requires forall k :: lo <= k && k + |eol| <= e ==> !EolAt(d, k, eol)
    ensures forall j :: 0 <= j && j + |eol| <= e - lo ==> !EolAt(d[lo..e], j, eol)
  {
    forall j | 0 <= j && j + |eol| <= e - lo
      ensures !EolAt(d[lo..e], j, eol)
    {
      var x, y := d[lo..e][j..j + |eol|], d[lo + j..lo + j + |eol|];
      assert |x| == |y| && forall t :: 0 <= t < |x| ==> x[t] == y[t];
      assert !EolAt(d, lo + j, eol);
    }
  }

  /** Whether `eol` occurs at `j` can be read off any prefix that holds it. */
  lemma EolAtPrefix(d: string, k: nat, j: int, eol: string)
    requires 0 <= j && j + |eol| <= k <= |d|
    ensures EolAt(d[..k], j, eol) == EolAt(d, j, eol)
  {
    assert d[..k][j..j + |eol|] == d[j..j + |eol|];
  }

  /** Two writes that follow each other land as one write of both. */
  lemma OverwriteTwice(d: string, p: nat, a: string, c: string)
    requires p <= |d|
    ensures p + |a| <= |Overwrite(d, p, a)|
    ensures Overwrite(Overwrite(d, p, a), p + |a|, c) == Overwrite(d, p, a + c)
  {
    var d1 := Overwrite(d, p, a);
    var l := Overwrite(d1, p + |a|, c);
    var r := Overwrite(d, p, a + c);
    assert |l| == |r|;
    forall i | 0 <= i < |l| ensures l[i] == r[i] {
      if i < p {
      } else if i < p + |a| {
      } else if i < p + |a| + |c| {
      } else {
      }
    }
  }

  class Handle {
    const meta: Meta
    var data: string
    var pos: nat
    var eof: bool
    var closed: bool

    function State(): Buf
      reads this
    {
      Buf(data, pos, eof)
    }

    /** An open handle whose cursor lies within its bytes. */
    ghost predicate Live()
      reads this
    {
      pos <= |data| && !closed
    }

    constructor (meta: Meta, data: string)
      ensures this.meta == meta && this.data == data && pos == 0 && !eof && !closed
    {
      this.meta := meta;
      this.data := data;
      pos := 0;
      eof := false;
      closed := false;
    }

    function Ftell(): nat
      reads this
    {
      pos
    }

    /** `feof`: the end-of-file indicator. */
    predicate Feof()
      reads this
    {
      eof
    }

    method Fread(n: int) returns (r: Option<string>)
      requires Live()
      modifies this
      ensures Live() && Step(r, State()) == ReadBuf(meta, old(State()), n)
    {
      var s := ReadBuf(meta, State(), n);
      r := s.out;
      data, pos, eof := s.after.data, s.after.pos, s.after.eof;
    }

    method Fwrite(s: string) returns (r: Option<nat>)
      requires Live()
      modifies this
      ensures Live() && Step(r, State()) == WriteBuf(meta, old(State()), s)
    {
      var w := WriteBuf(meta, State(), s);
      r := w.out;
      data, pos, eof := w.after.data, w.after.pos, w.after.eof;
    }

    method Fseek(offset: int, whence: Whence) returns (r: int)
      requires Live()
      modifies this
      ensures Live() && Step(r, State()) == SeekBuf(meta, old(State()), offset, whence)
    {
      var k := SeekBuf(meta, State(), offset, whence);
      r := k.out;
      data, pos, eof := k.after.data, k.after.pos, k.after.eof;
    }

    method Ftruncate(size: int) returns (r: bool)
      requires Live()
      modifies this
      ensures Live() && Step(r, State()) == TruncateBuf(meta, old(State()), size)
    {
      var t := TruncateBuf(meta, State(), size);
      r := t.out;
      data, pos, eof := t.after.data, t.after.pos, t.after.eof;
    }

    method StreamGetLine(eol: string) returns (r: Option<string>)
      requires Live()
      modifies this
      ensures Live() && Step(r, State()) == GetLineBuf(meta, old(State()), eol)
    {
      var g := GetLineBuf(meta, State(), eol);
      r := g.out;
      data, pos, eof := g.after.data, g.after.pos, g.after.eof;
    }

    method StreamGetContents() returns (r: Option<string>)
      requires Live()
      modifies this
      ensures Live() && Step(r, State()) == ContentsBuf(meta, old(State()))
    {
      var c := ContentsBuf(meta, State());
      r := c.out;
      data, pos, eof := c.after.data, c.after.pos, c.after.eof;
    }

    method Fclose()
      requires Live()
      modifies this
      ensures closed && State() == old(State())
    {
      closed := true;
    }
  }
}

=== FILE: read_trait.dfy ===
/** ReadTrait, the reading half of the `Stream` revision's Readable and
    Seekable classes. None of its operations checks the readable flag: they
    go straight to the handle, and a primitive that fails with a diagnostic
    surfaces as the trait's exception. */
module ReadTrait {
  import opened Wrappers
  import opened Php
  import opened RawHandle
  import opened LineRules
  import opened CopySpec
  import opened Streams

  /** `read($bytes = 1024)`: fread from the cursor; fread's failure (a
      handle not opened for reading, a length below 1) raises. */
  method Read(s: Stream, bytes: int := CHUNK) returns (r: Result<string>)
    requires s.Valid() && s.stream != null && UsesReadTrait(s.kind)
    modifies s.stream
    ensures s.Valid()
    ensures var rb := ReadBuf(s.stream.meta, old(s.stream.State()), bytes);
      s.stream.State() == rb.after
      && (rb.out.Some? ==> r == Ok(rb.out.value))
      && (rb.out.None? ==> r == Err(IoFailure("fread")))
    ensures r.Ok? <==> bytes > 0 && OsReadable(s.stream.meta.mode)
    ensures r.Ok? ==> r.value == old(s.stream.data)[old(s.stream.pos)..s.stream.pos]
                      && |r.value| == Min(bytes, |s.stream.data| - old(s.stream.pos))
  {
    var data := s.stream.Fread(bytes);
    if data.None? {
      return Err(IoFailure("fread"));
    }
    return Ok(data.value);
  }

  /** ReadTrait's `readLine` on a handle state: stream_get_line's line with
      the terminator always appended, so at the end it is the terminator
      alone and the end-of-file indicator is set; a line is at most
      stream_get_line's 8192-byte window plus the terminator; a handle not
      opened for reading raises. */
  function LineStep(m: Meta, b: Buf, eol: string): (r: Step<Result<string>>)
    requires Inside(b)
    ensures Inside(r.after) && r.after.data == b.data
    ensures r.out.Err? <==> !OsReadable(m.mode)
    ensures r.out.Err? ==> r.out == Err(IoFailure("stream_get_line")) && r.after == b
    ensures r.out.Ok? ==> EndsWith(r.out.value, eol)
    ensures r.out.Ok? ==> |r.out.value| <= LINE_MAX + |eol|
    ensures r.out.Ok? && AtEnd(b) ==> r.out.value == eol && r.after == Buf(b.data, b.pos, true)
    ensures r.out.Ok? && !AtEnd(b) ==> b.pos < r.after.pos
  {
    if !OsReadable(m.mode) then Step(Err(IoFailure("stream_get_line")), b)
    else
      var g := GetLineBuf(m, b, eol);
      var line := TraitLine(g.out, eol);
      assert line[|line| - |eol|..] == eol;
      Step(Ok(line), g.after)
  }

  /** `readLine($eol = PHP_EOL)`. */
  method ReadLine(s: Stream, eol: string := PHP_EOL) returns (r: Result<string>)
    requires s.Valid() && s.stream != null && UsesReadTrait(s.kind)
    modifies s.stream
    ensures s.Valid()
    ensures Step(r, s.stream.State()) == LineStep(s.stream.meta, old(s.stream.State()), eol)
  {
    if !OsReadable(s.stream.meta.mode) {
      return Err(IoFailure("stream_get_line"));
    }
    var line := s.stream.StreamGetLine(eol);
    return Ok(TraitLine(line, eol));
  }

  /** `readAll()`: everything from the cursor to the end. */
  method ReadAll(s: Stream) returns (r: Result<string>)
    requires s.Valid() && s.stream != null && UsesReadTrait(s.kind)
    modifies s.stream
    ensures s.Valid()
    ensures !OsReadable(s.stream.meta.mode) ==> r == Err(IoFailure("stream_get_contents")) && s.stream.State() == old(s.stream.State())
    ensures OsReadable(s.stream.meta.mode) ==>
      r == Ok(old(s.stream.data)[old(s.stream.pos)..]) && s.stream.data == old(s.stream.data)
      && AtEnd(s.stream.State()) && s.stream.Feof()
  {
    var data := s.stream.StreamGetContents();
    if data.None? {
      return Err(IoFailure("stream_get_contents"));
    }
    return Ok(data.value);
  }

  /** `eof()`: feof of the handle, the indicator a read that ran into the
      end has set and a successful seek clears. Once it is set the copy loops
      and the iterators stop, with nothing left to deliver; while it is clear
      every byte after the cursor is still to come, even when the cursor
      already stands at the end. */
  function Eof(s: Stream): (r: bool)
    requires s.stream != null && UsesReadTrait(s.kind) && Inside(s.stream.State())
    reads s, s.stream
    ensures r <==> s.stream.eof
    ensures r ==> Remaining(s.stream.State()) == 0
    ensures !r ==> Remaining(s.stream.State()) == |s.stream.data| - s.stream.pos
  {
    s.stream.Feof()
  }
}

=== FILE: scenarios.dfy ===
/** The behaviours the repository's test case checks, stated over the model:
    each method performs the test's calls on the model's objects and its
    postcondition is the test's assertion, for every stream of the kind the
    test sets up. */
module Scenarios {
  import opened Wrappers
  import opened Php
  import opened RawHandle
  import opened Capabilities
  import opened LineRules
  import opened CopySpec
  import opened Streams
  import ReadTrait
  import WriteTrait
  import SeekableMethods

  /** `writeFrom()`: an unlimited copy from a readable stream at its start
      into a writable sink that takes every byte reports the source's size;
      `writeFrom($reader, 10)` reports 10 once the source holds 10 bytes. */
  method WriteFromReader(writer: Stream, reader: Stream, maxLen: int) returns (bytes: nat)
    requires writer.Valid() && writer.stream != null && writer.kind == PlainStream
    requires writer.writable && Unbounded(writer.stream.meta)
    requires reader.Valid() && reader.stream != null && reader.readable
    requires reader.stream.pos == 0 && !reader.stream.Feof()
    requires reader.stream != writer.stream
    modifies writer.stream, reader.stream
    ensures maxLen < 0 ==> bytes == |old(reader.stream.data)|
    ensures maxLen >= 0 ==> bytes == Min(maxLen, |old(reader.stream.data)|)
    ensures maxLen == 10 && |old(reader.stream.data)| >= 10 ==> bytes == 10
  {
    DeriveFlagsSpec(reader.stream.meta);
    ReadableFlagIsSound(reader.stream.meta.mode);
    ghost var o := DrainFrom(reader.stream.meta, reader.stream.State(), writer.stream.meta, writer.stream.State(), maxLen);
    DrainFromCopies(reader.stream.meta, reader.stream.State(), writer.stream.meta, writer.stream.State(), maxLen, o);
    bytes := writer.WriteFrom(reader, maxLen);
  }

  /** On an empty handle that takes every byte, the trait's write of a text
      stores exactly that text, and reading it from the start gives it back. */
  lemma WriteThenReadFromStart(m: Meta, text: string)
    requires OsReadable(m.mode) && Unbounded(m) && |text| > 0
    ensures var w := TraitWrite(m, Buf("", 0, false), text);
      w.out == Ok(|text|) && w.after.data == text
    ensures ReadBuf(m, Buf(text, 0, false), |text|).out == Some(text)
  {
    var w := WriteBuf(m, Buf("", 0, false), text);
    assert w.after.data == Overwrite("", WriteAt(m, Buf("", 0, false)), text[..|text|]);
    assert text[0..|text|] == text;
  }

  /** `readLine()` through Read\Iterator over "a\nb\n": two lines come out,
      each with its terminator, and `valid()` still holds after both, since
      nothing has yet read into the end; the third `current()` runs into the
      end, hands out the terminator alone and sets the indicator, and only
      then does `valid()` fail. A foreach thus sees three elements. */
  lemma TwoLinesGiveThreeElements(m: Meta)
    requires OsReadable(m.mode)
    ensures var s1 := ReadTrait.LineStep(m, Buf("a\nb\n", 0, false), PHP_EOL);
      var s2 := ReadTrait.LineStep(m, s1.after, PHP_EOL);
      var s3 := ReadTrait.LineStep(m, s2.after, PHP_EOL);
      s1.out == Ok("a\n") && !s1.after.eof
      && s2.out == Ok("b\n") && !s2.after.eof
      && s3.out == Ok("\n") && s3.after.eof
  {
    var b0 := Buf("a\nb\n", 0, false);
    assert b0.data[..4] == b0.data;
    assert b0.data[0] == 'a' && b0.data[1] == '\n';
    assert b0.data[0..1] != "\n" && b0.data[1..2] == "\n";
    assert FindEol(b0.data, 1, "\n") == Some(1);
    assert FindEol(b0.data, 0, "\n") == Some(1);
    assert LineEnd(b0, "\n") == Some(1);
    assert b0.data[0..1] == "a";
    var b1 := Buf("a\nb\n", 2, false);
    assert GetLineBuf(m, b0, "\n") == Step(Some("a"), b1);
    assert b1.data[..4] == b1.data;
    assert b1.data[2] == 'b' && b1.data[3] == '\n';
    assert b1.data[2..3] != "\n" && b1.data[3..4] == "\n";
    assert FindEol(b1.data, 3, "\n") == Some(3);
    assert FindEol(b1.data, 2, "\n") == Some(3);
    assert LineEnd(b1, "\n") == Some(3);
    assert b1.data[2..3] == "b";
    assert GetLineBuf(m, b1, "\n") == Step(Some("b"), Buf("a\nb\n", 4, false));
    assert TraitLine(Some("a"), PHP_EOL) == "a\n" && TraitLine(Some("b"), PHP_EOL) == "b\n";
    assert ReadTrait.LineStep(m, b0, PHP_EOL) == Step(Ok("a\n"), b1);
    assert ReadTrait.LineStep(m, b1, PHP_EOL) == Step(Ok("b\n"), Buf("a\nb\n", 4, false));
  }

  /** `writeLine()`: on an empty read-write temporary stream,
      `writeLine($line, "\n")`, `cursorBegin()` and `read(strlen($line) + 1)`
      give back the line and its terminator. */
  method WriteLineThenReadBack(t: Stream, line: string) returns (r: Result<string>)
    requires t.Valid() && t.stream != null && t.kind == SeekableClass
    requires OsReadable(t.stream.meta.mode) && Unbounded(t.stream.meta) && t.stream.data == ""
    requires !EndsWith(line, "\n")
    modifies t.stream
    ensures r == Ok(line + "\n")
  {
    WithEolSpec(line, "\n");
    WriteThenReadFromStart(t.stream.meta, line + "\n");
    var w := WriteTrait.WriteLine(t, line, Some("\n"));
    SeekableMethods.CursorBegin(t);
    r := ReadTrait.Read(t, |line| + 1);
  }

  /** `getLength()`: after writing a string to an empty temporary stream,
      its length is the string's. */
  method WriteThenGetLength(t: Stream, s: string) returns (n: nat)
    requires t.Valid() && t.stream != null && t.kind == SeekableClass
    requires Unbounded(t.stream.meta) && t.stream.data == ""
    modifies t.stream
    ensures n == |s|
  {
    var w := WriteTrait.Write(t, s);
    assert t.stream.data == Overwrite("", 0, s[..|s|]);
    assert s[..|s|] == s;
    n := SeekableMethods.GetLength(t);
  }

  /** `readableException()`: a Readable over a write-only stream is refused. */
  method ReadableOverWriteOnly(h: Handle) returns (r: Result<Stream>)
    requires h.Live() && ContainsIgnoreCase(h.meta.resType, "stream") && h.meta.mode == "wb"
    ensures r == Err(Domain("Unreadable stream!"))
  {
    assert ModeFlags("wb") == {Writable};
    r := Stream.New(h, ReadableClass);
  }

  /** `writeException()`: writing to a stream opened "rb" is refused. */
  method WriteToReader(s: Stream) returns (r: Result<Option<nat>>)
    requires s.Valid() && s.stream != null && s.kind == PlainStream && s.stream.meta.mode == "rb"
    modifies s.stream
    ensures r == Err(Runtime("Stream isn't writable!"))
  {
    assert ModeFlags("rb") == {Readable};
    r := s.Write("\n");
  }
}

=== FILE: seekable.dfy ===
/** The cursor operations of the `Stream` revision's Seekable class. Its
    constructor has made sure the handle is seekable, and none of these
    operations reports fseek's failure: a target outside the bytes leaves
    the handle as it was, and a successful seek clears the end-of-file
    indicator. */
module SeekableMethods {
  import opened RawHandle
  import opened Capabilities
  import opened Streams

  /** A Seekable instance whose handle is still attached. */
  ghost predicate Attached(s: Stream)
    reads s, s.stream
  {
    s.Valid() && s.stream != null && s.kind == SeekableClass
  }

  /** `setCursor($offset, $whence)`: fseek, result ignored. */
  method SetCursor(s: Stream, offset: int, whence: Whence)
    requires Attached(s)
    modifies s.stream
    ensures Attached(s)
    ensures var t := SeekTarget(old(s.stream.State()), offset, whence);
      (0 <= t <= |old(s.stream.data)| ==> s.stream.State() == Buf(old(s.stream.data), t, false))
      && (t < 0 || t > |old(s.stream.data)| ==> s.stream.State() == old(s.stream.State()))
  {
    DeriveFlagsSpec(s.stream.meta);
    var _ := s.stream.Fseek(offset, whence);
  }

  /** `cursorBegin()`. */
  method CursorBegin(s: Stream)
    requires Attached(s)
    modifies s.stream
    ensures Attached(s) && s.stream.State() == Buf(old(s.stream.data), 0, false)
  {
    SetCursor(s, 0, SeekSet);
  }

  /** `cursorEnd()`. */
  method CursorEnd(s: Stream)
    requires Attached(s)
    modifies s.stream
    ensures Attached(s) && s.stream.State() == Buf(old(s.stream.data), |old(s.stream.data)|, false)
  {
    SetCursor(s, 0, SeekEnd);
  }

  /** `cursorNext()`: one byte on, unless the cursor is at the end. */
  method CursorNext(s: Stream)
    requires Attached(s)
    modifies s.stream
    ensures Attached(s) && s.stream.data == old(s.stream.data)
    ensures old(s.stream.pos) < |s.stream.data| ==> s.stream.pos == old(s.stream.pos) + 1 && !s.stream.eof
    ensures old(s.stream.pos) == |s.stream.data| ==> s.stream.State() == old(s.stream.State())
  {
    CursorTo(s, 1, true);
  }

  /** `cursorPrevious()`: one byte back, unless the cursor is at the start. */
  method CursorPrevious(s: Stream)
    requires Attached(s)
    modifies s.stream
    ensures Attached(s) && s.stream.data == old(s.stream.data)
    ensures old(s.stream.pos) > 0 ==> s.stream.pos == old(s.stream.pos) - 1 && !s.stream.eof
    ensures old(s.stream.pos) == 0 ==> s.stream.State() == old(s.stream.State())
  {
    CursorTo(s, -1, true);
  }

  /** `cursorTo($offset, $add = false)`: an absolute position, or one
      relative to the cursor when `add` is set. */
  method CursorTo(s: Stream, offset: int, add: bool)
    requires Attached(s)
    modifies s.stream
    ensures Attached(s) && s.stream.data == old(s.stream.data)
    ensures var t := if add then old(s.stream.pos) + offset else offset;
      (0 <= t <= |s.stream.data| ==> s.stream.pos == t && !s.stream.eof)
      && (t < 0 || t > |s.stream.data| ==> s.stream.State() == old(s.stream.State()))
  {
    var whence := if add then SeekCur else SeekSet;
    SetCursor(s, offset, whence);
  }

  /** `cursorPos()`: ftell. */
  method CursorPos(s: Stream) returns (r: nat)
    requires Attached(s)
    ensures r == s.stream.pos && r <= |s.stream.data|
  {
    r := s.stream.Ftell();
  }

  /** `truncate($size = 0)`: ftruncate's verdict; on success the bytes are
      cut or zero-padded to `size` and a cursor beyond them is pulled back. */
  method Truncate(s: Stream, size: int) returns (r: bool)
    requires Attached(s)
    modifies s.stream
    ensures Attached(s)
    ensures Step(r, s.stream.State()) == TruncateBuf(s.stream.meta, old(s.stream.State()), size)
    ensures r <==> OsWritable(s.stream.meta.mode) && size >= 0
                   && (s.stream.meta.capacity.None? || size <= s.stream.meta.capacity.value)
    ensures r ==> |s.stream.data| == size && s.stream.pos == Min(old(s.stream.pos), size)
                  && s.stream.data[..Min(size, |old(s.stream.data)|)] == old(s.stream.data)[..Min(size, |old(s.stream.data)|)]
    ensures !r ==> s.stream.State() == old(s.stream.State())
  {
    r := s.stream.Ftruncate(size);
  }

  /** `getLength()`: the end offset, found by moving to the end and back, so
      the bytes and the cursor are left as they were; the two successful
      seeks clear the end-of-file indicator. */
  method GetLength(s: Stream) returns (r: nat)
    requires Attached(s)
    modifies s.stream
    ensures Attached(s)
    ensures r == |s.stream.data| && s.stream.State() == Buf(old(s.stream.data), old(s.stream.pos), false)
  {
    var offset := CursorPos(s);
    CursorEnd(s);
    r := CursorPos(s);
    CursorTo(s, offset, false);
  }
}

=== FILE: seekable_stream.dfy ===
/** The cursor operations of the wrapper revision's SeekableStream. Its
    constructor has made sure the handle is seekable; as in the `Stream`
    revision's Seekable, fseek's failure is ignored, and a successful seek
    clears the end-of-file indicator. */
module SeekableStreamMethods {
  import opened RawHandle
  import opened Capabilities
  import opened Wrapper

  /** A SeekableStream whose handle is still attached. */
  ghost predicate Attached(w: StreamWrapper)
    reads w, w.resource
  {
    w.Valid() && w.resource != null && w.kind == SeekableStream
  }

  /** `setCursor($offset, $whence)`: fseek, result ignored. */
  method SetCursor(w: StreamWrapper, offset: int, whence: Whence)
    requires Attached(w)
    modifies w.resource
    ensures Attached(w)
    ensures var t := SeekTarget(old(w.resource.State()), offset, whence);
      (0 <= t <= |old(w.resource.data)| ==> w.resource.State() == Buf(old(w.resource.data), t, false))
      && (t < 0 || t > |old(w.resource.data)| ==> w.resource.State() == old(w.resource.State()))
  {
    var _ := w.resource.Fseek(offset, whence);
  }

  /** `seekBegin()`. */
  method SeekBegin(w: StreamWrapper)
    requires Attached(w)
    modifies w.resource
    ensures Attached(w) && w.resource.State() == Buf(old(w.resource.data), 0, false)
  {
    SetCursor(w, 0, SeekSet);
  }

  /** `seekEnd()`. */
  method SeekEnd(w: StreamWrapper)
    requires Attached(w)
    modifies w.resource
    ensures Attached(w) && w.resource.State() == Buf(old(w.resource.data), |old(w.resource.data)|, false)
  {
    SetCursor(w, 0, Whence.SeekEnd);
  }

  /** `seek($offset, $add = false)`: an absolute position, or one relative
      to the cursor when `add` is set. */
  method Seek(w: StreamWrapper, offset: int, add: bool)
    requires Attached(w)
    modifies w.resource
    ensures Attached(w) && w.resource.data == old(w.resource.data)
    ensures var t := if add then old(w.resource.pos) + offset else offset;
      (0 <= t <= |w.resource.data| ==> w.resource.pos == t && !w.resource.eof)
      && (t < 0 || t > |w.resource.data| ==> w.resource.State() == old(w.resource.State()))
  {
    var whence := if add then SeekCur else SeekSet;
    SetCursor(w, offset, whence);
  }

  /** `tell()`: ftell. */
  method Tell(w: StreamWrapper) returns (r: nat)
    requires Attached(w)
    ensures r == w.resource.pos && r <= |w.resource.data|
  {
    r := w.resource.Ftell();
  }

  /** `truncate($size = 0)`: ftruncate's verdict. */
  method Truncate(w: StreamWrapper, size: int) returns (r: bool)
    requires Attached(w)
    modifies w.resource
    ensures Attached(w)
    ensures Step(r, w.resource.State()) == TruncateBuf(w.resource.meta, old(w.resource.State()), size)
    ensures r <==> OsWritable(w.resource.meta.mode) && size >= 0
                   && (w.resource.meta.capacity.None? || size <= w.resource.meta.capacity.value)
    ensures r ==> |w.resource.data| == size && w.resource.pos == Min(old(w.resource.pos), size)
                  && w.resource.data[..Min(size, |old(w.resource.data)|)] == old(w.resource.data)[..Min(size, |old(w.resource.data)|)]
    ensures !r ==> w.resource.State() == old(w.resource.State())
  {
    r := w.resource.Ftruncate(size);
  }

  /** `getSize()`: the end offset, found by seeking to the end and back; the
      two successful seeks clear the end-of-file indicator. */
  method GetSize(w: StreamWrapper) returns (r: nat)
    requires Attached(w)
    modifies w.resource
    ensures Attached(w)
    ensures r == |w.resource.data| && w.resource.State() == Buf(old(w.resource.data), old(w.resource.pos), false)
  {
    var offset := Tell(w);
    SeekEnd(w);
    r := Tell(w);
    Seek(w, offset, false);
  }
}

=== FILE: stream.dfy ===
/** The `Stream` revision: a wrapper object holding boolean capability flags
    next to the handle, with the shared behaviour of StreamTrait. The
    subclasses Readable, Writable and Seekable of this revision only narrow
    the constructor and borrow ReadTrait / WriteTrait; they are the
    `StreamClass` tag here, and their own operations live in the modules
    ReadTrait, WriteTrait and Seekable. */
module Streams {
  import opened Wrappers
  import opened Php
  import opened RawHandle
  import opened Capabilities
  import opened LineRules
  import opened CopySpec

  /** Stream and the subclasses that add a constructor check. */
  datatype StreamClass = PlainStream | ReadableClass | WritableClass | SeekableClass

  /** The classes that use ReadTrait (Readable, Seekable) and WriteTrait
      (Writable, Seekable). */
  predicate UsesReadTrait(k: StreamClass) {
    k == ReadableClass || k == SeekableClass
  }

  predicate UsesWriteTrait(k: StreamClass) {
    k == WritableClass || k == SeekableClass
  }

  /** The DomainException a subclass's constructor raises for flags that lack
      its capability; Stream itself accepts every flag set. */
  function Refusal(k: StreamClass, fs: set<Flag>): (r: Option<Error>)
    ensures r.None? <==> (k == ReadableClass ==> Readable in fs) && (k == WritableClass ==> Writable in fs)
                         && (k == SeekableClass ==> Seekable in fs)
  {
    match k
    case PlainStream => None
    case ReadableClass => if Readable in fs then None else Some(Domain("Unreadable stream!"))
    case WritableClass => if Writable in fs then None else Some(Domain("Unwritable stream!"))
    case SeekableClass => if Seekable in fs then None else Some(Domain("The stream isn't a local one"))
  }

  /** What Stream's constructor rejects before it derives any flag: a value
      that is not an open resource, and a resource whose type does not
      contain "stream" in any letter case. */
  function ResourceCheck(h: Handle?): Option<Error>
    reads h
  {
    if h == null || h.closed then Some(InvalidArgument("Argument should be a resource"))
    else if !ContainsIgnoreCase(h.meta.resType, "stream") then Some(InvalidArgument("Invalid stream resource"))
    else None
  }

  /** An exception raised by a helper call, passed on by a caller with a
      different result type. */
  function Forward<T>(r: Result<()>, value: T): Result<T> {
    match r
    case Err(e) => Err(e)
    case Ok(_) => Ok(value)
  }

  class Stream {
    const kind: StreamClass
    var readable: bool
    var writable: bool
    var seekable: bool
    var persistent: bool
    var local: bool
    var stream: Handle?
    var eol: string

    /** The four capability booleans as a set. */
    function Flags(): set<Flag>
      reads this
    {
      (if readable then {Readable} else {}) + (if writable then {Writable} else {})
      + (if seekable then {Seekable} else {}) + (if persistent then {Persistent} else {})
    }

    /** While a handle is attached the flags are those its metadata yields
        and the subclass check holds; once detached every flag is off. */
    ghost predicate Valid()
      reads this, stream
    {
      if stream == null then !readable && !writable && !seekable && !persistent
      else stream.Live() && Flags() == DeriveFlags(stream.meta) && local == stream.meta.local
           && Refusal(kind, Flags()).None?
    }

    /** `isDetached()`. */
    predicate IsDetached()
      reads this
    {
      stream == null
    }

    /** `eof()`: the handle's end-of-file indicator, true once detached. */
    predicate Eof()
      reads this, stream
    {
      stream == null || stream.Feof()
    }

    /** The field assignments of Stream's constructor once the resource is
        known to be a stream. */
    constructor Init(h: Handle, kind: StreamClass)
      requires h.Live()
      ensures this.kind == kind && stream == h && eol == PHP_EOL
      ensures Flags() == DeriveFlags(h.meta) && local == h.meta.local
    {
      this.kind := kind;
      stream := h;
      eol := PHP_EOL;
      var mode := h.meta.mode;
      readable, writable := false, false;
      if ModePlus(mode) {
        readable, writable := true, true;
      } else if ModeMatches(mode) && mode[0] == 'r' {
        readable := true;
      } else {
        writable := true;
      }
      local := h.meta.local;
      persistent := ContainsIgnoreCase(h.meta.resType, "persistent");
      seekable := h.meta.seekable;
    }

    /** `new Stream($h)` and the subclass constructors: the errors, in the
        order they are checked, or a valid stream on the handle whose flags
        are the ones its metadata yields. */
    static method New(h: Handle?, kind: StreamClass) returns (r: Result<Stream>)
      requires h != null ==> h.pos <= |h.data|
      ensures ResourceCheck(h).Some? ==> r == Err(ResourceCheck(h).value)
      ensures ResourceCheck(h).None? ==>
        (Refusal(kind, DeriveFlags(h.meta)).Some? ==> r == Err(Refusal(kind, DeriveFlags(h.meta)).value))
        && (Refusal(kind, DeriveFlags(h.meta)).None? ==> r.Ok?)
      ensures r.Ok? ==> fresh(r.value) && r.value.Valid() && r.value.stream == h && r.value.kind == kind
                        && r.value.eol == PHP_EOL && r.value.Flags() == DeriveFlags(h.meta)
    {
      if h == null || h.closed {
        return Err(InvalidArgument("Argument should be a resource"));
      }
      if !ContainsIgnoreCase(h.meta.resType, "stream") {
        return Err(InvalidArgument("Invalid stream resource"));
      }
      var s := new Stream.Init(h, kind);
      var refusal := Refusal(kind, s.Flags());
      if refusal.Some? {
        return Err(refusal.value);
      }
      return Ok(s);
    }

    /** `detach()`: hands back the handle and clears the four flags; `local`
        and the terminator stay. */
    method Detach() returns (h: Handle?)
      modifies this
      ensures Valid() && IsDetached() && h == old(stream)
      ensures !readable && !writable && !seekable && !persistent
      ensures local == old(local) && eol == old(eol)
    {
      h := stream;
      stream := null;
      persistent := false;
      seekable := false;
      writable := false;
      readable := false;
    }

    /** `close()`: closes a live handle, then detaches; on a detached stream
        it only detaches again, and afterwards `eof()` holds. */
    method Close()
      requires Valid()
      modifies this, stream
      ensures Valid() && IsDetached() && Eof()
      ensures old(stream) != null ==> old(stream).closed && old(stream).data == old(stream.data)
      ensures local == old(local) && eol == old(eol)
    {
      if stream != null && !stream.closed {
        stream.Fclose();
      }
      var _ := Detach();
    }

    /** `read($length)`: refused unless readable; otherwise fread, which on a
        readable stream never fails for a positive length. */
    method Read(length: int) returns (r: Result<Option<string>>)
      requires Valid() && !UsesReadTrait(kind)
      modifies stream
      ensures Valid()
      ensures !readable ==> r == Err(Runtime("Stream isn't readable!")) && (stream != null ==> stream.State() == old(stream.State()))
      ensures readable ==> r.Ok? && Step(r.value, stream.State()) == ReadBuf(stream.meta, old(stream.State()), length)
      ensures readable && length > 0 ==> r.value.Some?
    {
      if !readable {
        return Err(Runtime("Stream isn't readable!"));
      }
      DeriveFlagsSpec(stream.meta);
      ReadableFlagIsSound(stream.meta.mode);
      var s := stream.Fread(length);
      return Ok(s);
    }

    /** `readLine($eol)`: refused unless readable; the given terminator or the
        configured one, appended only to a truthy line; false at the end. */
    method ReadLine(e: Option<string>) returns (r: Result<Option<string>>)
      requires Valid() && !UsesReadTrait(kind)
      modifies stream
      ensures Valid()
      ensures !readable ==> r == Err(Runtime("Stream isn't readable!")) && (stream != null ==> stream.State() == old(stream.State()))
      ensures readable ==>
        var used := Coalesce(e, eol);
        var g := GetLineBuf(stream.meta, old(stream.State()), used);
        r == Ok(StreamLine(g.out, used)) && stream.State() == g.after
      ensures readable ==> (r.value.None? <==> AtEnd(old(stream.State())))
    {
      if !readable {
        return Err(Runtime("Stream isn't readable!"));
      }
      DeriveFlagsSpec(stream.meta);
      ReadableFlagIsSound(stream.meta.mode);
      var used := Coalesce(e, eol);
      var line := stream.StreamGetLine(used);
      return Ok(StreamLine(line, used));
    }

    /** `getContents()`: refused unless readable; otherwise everything from
        the cursor on, leaving the cursor at the end. */
    method GetContents() returns (r: Result<Option<string>>)
      requires Valid()
      modifies stream
      ensures Valid()
      ensures !readable ==> r == Err(Runtime("Stream isn't readable!")) && (stream != null ==> stream.State() == old(stream.State()))
      ensures readable ==> r == Ok(Some(old(stream.data[stream.pos..])))
                           && stream.data == old(stream.data) && AtEnd(stream.State()) && stream.Feof()
    {
      if !readable {
        return Err(Runtime("Stream isn't readable!"));
      }
      DeriveFlagsSpec(stream.meta);
      ReadableFlagIsSound(stream.meta.mode);
      var c := stream.StreamGetContents();
      return Ok(c);
    }

    /** `write($string)`: refused unless writable; otherwise fwrite's result. */
    method Write(s: string) returns (r: Result<Option<nat>>)
      requires Valid() && !UsesWriteTrait(kind)
      modifies stream
      ensures Valid()
      ensures !writable ==> r == Err(Runtime("Stream isn't writable!")) && (stream != null ==> stream.State() == old(stream.State()))
      ensures writable ==> r.Ok? && Step(r.value, stream.State()) == WriteBuf(stream.meta, old(stream.State()), s)
    {
      if !writable {
        return Err(Runtime("Stream isn't writable!"));
      }
      var n := stream.Fwrite(s);
      return Ok(n);
    }

    /** `writeLine($line, $eol)`: the line with the terminator appended when
        it does not already end with it, through `write`. */
    method WriteLine(line: string, e: Option<string>) returns (r: Result<Option<nat>>)
      requires Valid() && !UsesWriteTrait(kind)
      modifies stream
      ensures Valid()
      ensures !writable ==> r == Err(Runtime("Stream isn't writable!")) && (stream != null ==> stream.State() == old(stream.State()))
      ensures writable ==>
        r.Ok? && Step(r.value, stream.State()) == WriteBuf(stream.meta, old(stream.State()), WithEol(line, Coalesce(e, eol)))
    {
      var used := Coalesce(e, eol);
      r := Write(WithEol(line, used));
    }

    /** `seek($offset, $whence)`: refused unless seekable; "Seek error!" when
        the target lies outside the bytes, which leaves the handle as it was.
        A successful seek clears the end-of-file indicator. */
    method Seek(offset: int, whence: Whence) returns (r: Result<()>)
      requires Valid()
      modifies stream
      ensures Valid()
      ensures !seekable ==> r == Err(Runtime("Stream isn't seekable!")) && (stream != null ==> stream.State() == old(stream.State()))
      ensures seekable ==>
        var target := SeekTarget(old(stream.State()), offset, whence);
        stream.data == old(stream.data)
        && (r.Ok? <==> 0 <= target <= |stream.data|)
        && (r.Ok? ==> stream.pos == target && !stream.Feof())
        && (r.Err? ==> r == Err(Runtime("Seek error!")) && stream.State() == old(stream.State()))
    {
      if !seekable {
        return Err(Runtime("Stream isn't seekable!"));
      }
      DeriveFlagsSpec(stream.meta);
      var k := stream.Fseek(offset, whence);
      if k == -1 {
        return Err(Runtime("Seek error!"));
      }
      return Ok(());
    }

    /** `rewind()`: `seek(0)`, which on a seekable stream always succeeds. */
    method Rewind() returns (r: Result<()>)
      requires Valid()
      modifies stream
      ensures Valid()
      ensures !seekable ==> r == Err(Runtime("Stream isn't seekable!")) && (stream != null ==> stream.State() == old(stream.State()))
      ensures seekable ==> r.Ok? && stream.State() == Buf(old(stream.data), 0, false)
    {
      r := Seek(0, SeekSet);
    }

    /** `tell()`: refused unless seekable; otherwise the cursor. */
    method Tell() returns (r: Result<nat>)
      requires Valid()
      ensures !seekable ==> r == Err(Runtime("Stream isn't seekable!"))
      ensures seekable ==> r == Ok(stream.pos)
    {
      if !seekable {
        return Err(Runtime("Stream isn't seekable!"));
      }
      return Ok(stream.Ftell());
    }

    /** `truncate($size)`: fails on a detached stream or when ftruncate
        refuses; otherwise the bytes are cut or padded to `size`. */
    method Truncate(size: int) returns (r: Result<()>)
      requires Valid() && kind != SeekableClass
      modifies stream
      ensures Valid()
      ensures stream == null ==> r == Err(Runtime("Unable to truncate stream!"))
      ensures stream != null ==>
        var t := TruncateBuf(stream.meta, old(stream.State()), size);
        stream.State() == t.after && (r.Ok? <==> t.out) && (r.Err? ==> r == Err(Runtime("Unable to truncate stream!")))
    {
      if stream == null {
        return Err(Runtime("Unable to truncate stream!"));
      }
      var ok := stream.Ftruncate(size);
      if !ok {
        return Err(Runtime("Unable to truncate stream!"));
      }
      return Ok(());
    }

    /** `eol($eol)`: stores a given terminator; returns the current one. */
    method Eol(e: Option<string>) returns (r: string)
      requires Valid()
      modifies this
      ensures Valid()
      ensures eol == Coalesce(e, old(eol)) && r == eol
      ensures e.None? ==> unchanged(this)
      ensures stream == old(stream) && Flags() == old(Flags()) && local == old(local)
    {
      if e.Some? {
        eol := e.value;
      }
      return eol;
    }

    /** `getSize()`: null unless seekable; otherwise the end offset, found by
        seeking to the end and back, so the cursor ends where it was and the
        end-of-file indicator is cleared. */
    method GetSize() returns (r: Result<Option<nat>>)
      requires Valid()
      modifies stream
      ensures Valid()
      ensures !seekable ==> r == Ok(None) && (stream != null ==> stream.State() == old(stream.State()))
      ensures seekable ==> r == Ok(Some(|stream.data|)) && stream.State() == Buf(old(stream.data), old(stream.pos), false)
    {
      if !seekable {
        return Ok(None);
      }
      var p := Tell();
      var pos := if p.Ok? then p.value else 0;
      var toEnd := Seek(0, SeekEnd);
      if toEnd.Err? {
        return Forward(toEnd, None);
      }
      var size := Tell();
      var back := Seek(pos, SeekSet);
      if back.Err? {
        return Forward(back, None);
      }
      r := if size.Ok? then Ok(Some(size.value)) else Ok(None);
    }

    /** `__toString()`: "" unless readable; on a seekable stream the whole
        contents with the cursor put back (a seek, which clears the
        end-of-file indicator); otherwise what is left. A failure inside
        yields "". */
    method ToString() returns (r: string)
      requires Valid()
      modifies stream
      ensures Valid()
      ensures !readable ==> r == "" && (stream != null ==> stream.State() == old(stream.State()))
      ensures readable && seekable ==> r == old(stream.data) && stream.State() == Buf(old(stream.data), old(stream.pos), false)
      ensures readable && !seekable ==>
        r == old(stream.data[stream.pos..]) && stream.data == old(stream.data) && AtEnd(stream.State()) && stream.Feof()
    {
      if !readable {
        return "";
      }
      if seekable {
        var p := Tell();
        var pos := if p.Ok? then p.value else 0;
        var rw := Rewind();
        if rw.Err? {
          return "";
        }
        var c := GetContents();
        var back := Seek(pos, SeekSet);
        if back.Err? {
          return "";
        }
        r := if c.Ok? && c.value.Some? then c.value.value else "";
      } else {
        var c := GetContents();
        r := if c.Ok? && c.value.Some? then c.value.value else "";
      }
    }

    /** `writeFrom($src, $maxLen)`: 0 unless this stream is writable and the
        source readable; otherwise the copy loops of `DrainFrom`, whose
        outcome gives the count and both handles' new states. Of the source's
        two loops at most one runs, chosen by the sign of the budget. */
    method WriteFrom(src: Stream, maxLen: int) returns (bytes: nat)
      requires Valid() && src.Valid() && !UsesWriteTrait(kind)
      requires src.stream == null || src.stream != stream
      modifies stream, src.stream
      ensures Valid() && src.Valid()
      ensures !writable || !src.readable ==>
        bytes == 0
        && (stream != null ==> stream.State() == old(stream.State()))
        && (src.stream != null ==> src.stream.State() == old(src.stream.State()))
      ensures writable && src.readable ==>
        var o := DrainFrom(src.stream.meta, old(src.stream.State()), stream.meta, old(stream.State()), maxLen);
        bytes == o.bytes && src.stream.State() == o.src && stream.State() == o.dst
    {
      if !writable || !src.readable {
        return 0;
      }
      if maxLen < 0 {
        bytes := CopyToEof(src.stream, stream);
      } else {
        bytes := CopyBudget(src.stream, stream, maxLen);
      }
    }
  }

  // The two loops of StreamTrait's `writeFrom`. They run once `writeFrom`
  // has found the sink writable and the source readable; neither flag
  // changes while they run, so `$src->read($n)` is the source handle's
  // fread, `$this->write($data)` the sink handle's fwrite and `$src->eof()`
  // the source handle's feof, and the loops are stated on the two handles.

  /** One pass of either loop, `$data = $src->read($n); $wbytes =
      $this->write($data)`: false from `fread` is written as "", and the
      pass moves both handles as `DrainPass` says. */
  method ReadThenWrite(sh: Handle, dh: Handle, n: int) returns (data: string, wr: Option<nat>)
    requires sh.Live() && dh.Live() && sh != dh
    modifies sh, dh
    ensures sh.Live() && dh.Live()
    ensures var p := DrainPass(sh.meta, old(sh.State()), dh.meta, old(dh.State()), n);
      sh.State() == p.src && dh.State() == p.dst && |data| == p.length && Count(wr) == p.written
  {
    DrainPassReadsThenWrites(sh.meta, sh.State(), dh.meta, dh.State(), n);
    var rd := sh.Fread(n);
    data := Chunk(rd);
    wr := dh.Fwrite(data);
  }

  /** The first loop: DEFAULT_READ-byte chunks until the source reports its
      end or a write returns 0 or false. */
  method CopyToEof(sh: Handle, dh: Handle) returns (bytes: nat)
    requires sh.Live() && dh.Live() && sh != dh
    modifies sh, dh
    ensures sh.Live() && dh.Live()
    ensures var o := DrainAll(sh.meta, old(sh.State()), dh.meta, old(dh.State()), 0);
      bytes == o.bytes && sh.State() == o.src && dh.State() == o.dst
  {
    ghost var o := DrainAll(sh.meta, sh.State(), dh.meta, dh.State(), 0);
    bytes := 0;
    while !sh.Feof()
      invariant sh.Live() && dh.Live()
      invariant DrainAllYields(o, sh.meta, sh.State(), dh.meta, dh.State(), bytes)
      decreases |sh.data| - sh.pos
    {
      var data, wr := ReadThenWrite(sh, dh, DEFAULT_READ);
      bytes := bytes + Count(wr);
      if Count(wr) == 0 {
        break;
      }
    }
  }

  /** The second loop: chunks of at most the remaining budget, which falls
      by the bytes actually read, until the budget is spent, the source
      reports its end, or a write returns 0 or false. */
  method CopyBudget(sh: Handle, dh: Handle, maxLen: int) returns (bytes: nat)
    requires sh.Live() && dh.Live() && sh != dh
    modifies sh, dh
    ensures sh.Live() && dh.Live()
    ensures var o := DrainBudget(sh.meta, old(sh.State()), dh.meta, old(dh.State()), maxLen, 0);
      bytes == o.bytes && sh.State() == o.src && dh.State() == o.dst
  {
    ghost var o := DrainBudget(sh.meta, sh.State(), dh.meta, dh.State(), maxLen, 0);
    bytes := 0;
    var budget := maxLen;
    while budget > 0 && !sh.Feof()
      invariant sh.Live() && dh.Live()
      invariant DrainBudgetYields(o, sh.meta, sh.State(), dh.meta, dh.State(), budget, bytes)
      decreases if budget > 0 then budget else 0
    {
      var toRead := Request(budget);
      var data, wr := ReadThenWrite(sh, dh, toRead);
      budget := budget - |data|;
      bytes := bytes + Count(wr);
      if Count(wr) == 0 {
        break;
      }
    }
  }
}

=== FILE: stream_wrapper.dfy ===
/** The `StreamWrapper` revision: the capability flags live in one bit mask
    instead of four booleans, and a static factory picks the typed variant
    (SeekableStream, ReadWriteStream, ReadableStream, WritableStream) that
    fits a resource. The variants only add a constructor check and borrow
    the stream traits; they are the `Variant` tag here. */
module Wrapper {
  import opened Wrappers
  import opened Php
  import opened RawHandle
  import opened Capabilities

  /** What the constructor rejects before it derives any flag. Unlike the
      `Stream` revision, a resource of another type is a DomainException. */
  function ResourceCheck(h: Handle?): (r: Option<Error>)
    reads h
    ensures r.None? <==> h != null && !h.closed && ContainsIgnoreCase(h.meta.resType, "stream")
  {
    if h == null || h.closed then Some(InvalidArgument("Argument should be a resource"))
    else if !ContainsIgnoreCase(h.meta.resType, "stream") then Some(Domain("Invalid stream resource"))
    else None
  }

  /** The DomainException a variant's constructor raises for flags that lack
      its capability. */
  function Refusal(v: Variant, fs: set<Flag>): (r: Option<Error>)
    ensures r.None? <==> Admits(v, fs)
  {
    match v
    case SeekableStream => if Seekable in fs then None else Some(Domain("The stream isn't seekable"))
    case ReadableStream => if Readable in fs then None else Some(Domain("Unreadable stream!"))
    case WritableStream => if Writable in fs then None else Some(Domain("Unwritable stream!"))
    case Plain => None
    case ReadWriteStream => None
  }

  /** The variants that use the readable and the writable stream trait. */
  predicate UsesReadableTrait(v: Variant) {
    v == ReadableStream || v == SeekableStream || v == ReadWriteStream
  }

  predicate UsesWritableTrait(v: Variant) {
    v == WritableStream || v == SeekableStream || v == ReadWriteStream
  }

  class StreamWrapper {
    const kind: Variant
    var flags: set<Flag>
    var resource: Handle?
    var eol: string

    /** While a handle is attached the flags are those its metadata yields
        and the variant's check holds. */
    ghost predicate Valid()
      reads this, resource
    {
      resource != null ==> resource.Live() && flags == DeriveFlags(resource.meta) && Admits(kind, flags)
    }

    /** The constructor's body once the resource is known to be a stream:
        the flags are added one at a time. */
    constructor Init(h: Handle, kind: Variant)
      requires h.Live()
      ensures this.kind == kind && resource == h && eol == PHP_EOL && flags == DeriveFlags(h.meta)
    {
      this.kind := kind;
      resource := h;
      eol := PHP_EOL;
      var mode := h.meta.mode;
      var fs: set<Flag> := {};
      if ModePlus(mode) {
        fs := fs + {Readable};
        fs := fs + {Writable};
      } else if ModeMatches(mode) && mode[0] == 'r' {
        fs := fs + {Readable};
      } else {
        fs := fs + {Writable};
      }
      if ContainsIgnoreCase(h.meta.resType, "persistent") {
        fs := fs + {Persistent};
      }
      if h.meta.seekable {
        fs := fs + {Seekable};
      }
      flags := fs;
    }

    /** `new StreamWrapper($h)` and the variant constructors: the errors, in
        the order they are checked, or a valid wrapper on the handle. */
    static method New(h: Handle?, kind: Variant) returns (r: Result<StreamWrapper>)
      requires h != null ==> h.pos <= |h.data|
      ensures ResourceCheck(h).Some? ==> r == Err(ResourceCheck(h).value)
      ensures ResourceCheck(h).None? ==>
        (r.Ok? <==> Admits(kind, DeriveFlags(h.meta)))
        && (r.Err? ==> r == Err(Refusal(kind, DeriveFlags(h.meta)).value))
      ensures r.Ok? ==> fresh(r.value) && r.value.Valid() && r.value.resource == h && r.value.kind == kind
                        && r.value.eol == PHP_EOL && r.value.flags == DeriveFlags(h.meta)
    {
      if h == null || h.closed {
        return Err(InvalidArgument("Argument should be a resource"));
      }
      if !ContainsIgnoreCase(h.meta.resType, "stream") {
        return Err(Domain("Invalid stream resource"));
      }
      var w := new StreamWrapper.Init(h, kind);
      var refusal := Refusal(kind, w.flags);
      if refusal.Some? {
        return Err(refusal.value);
      }
      return Ok(w);
    }

    /** `isReadable()` and its siblings test one bit of the mask. */
    function IsReadable(): (r: bool)
      reads this
      ensures r <==> Readable in flags
    {
      MaskTestsMembership(flags, Readable);
      HasBit(Mask(flags), Readable)
    }

    function IsWritable(): (r: bool)
      reads this
      ensures r <==> Writable in flags
    {
      MaskTestsMembership(flags, Writable);
      HasBit(Mask(flags), Writable)
    }

    function IsSeekable(): (r: bool)
      reads this
      ensures r <==> Seekable in flags
    {
      MaskTestsMembership(flags, Seekable);
      HasBit(Mask(flags), Seekable)
    }

    function IsPersistent(): (r: bool)
      reads this
      ensures r <==> Persistent in flags
    {
      MaskTestsMembership(flags, Persistent);
      HasBit(Mask(flags), Persistent)
    }

    /** `eol($eol = null)`: stores a given terminator; returns the current one. */
    method Eol(e: Option<string>) returns (r: string)
      requires Valid()
      modifies this
      ensures Valid()
      ensures eol == Coalesce(e, old(eol)) && r == eol
      ensures resource == old(resource) && flags == old(flags)
    {
      if e.Some? {
        eol := e.value;
      }
      return eol;
    }

    /** `factory($stream)` called on the class `called` (`new static`): that
        class's own checks first, then the first variant in the order
        seekable, read-write, readable, writable. The probe object lets go of
        the handle, so its destructor leaves the handle open. */
    static method Factory(h: Handle?, called: Variant) returns (r: Result<StreamWrapper>)
      requires h != null ==> h.pos <= |h.data|
      ensures ResourceCheck(h).Some? ==> r == Err(ResourceCheck(h).value)
      ensures ResourceCheck(h).None? && !Admits(called, DeriveFlags(h.meta)) ==>
        r == Err(Refusal(called, DeriveFlags(h.meta)).value)
      ensures ResourceCheck(h).None? && Admits(called, DeriveFlags(h.meta)) ==>
        r.Ok? && r.value.kind == Select(DeriveFlags(h.meta))
      ensures r.Ok? ==> fresh(r.value) && r.value.Valid() && r.value.resource == h && !h.closed
                        && r.value.flags == DeriveFlags(h.meta)
    {
      var probe := New(h, called);
      if probe.Err? {
        return Err(probe.error);
      }
      var self := probe.value;
      var v: Variant;
      if self.IsSeekable() {
        v := SeekableStream;
      } else if self.IsReadable() && self.IsWritable() {
        v := ReadWriteStream;
      } else if self.IsReadable() {
        v := ReadableStream;
      } else {
        v := WritableStream;
      }
      SelectIsAdmitted(h.meta);
      var instance := New(h, v);
      self.resource := null;
      assert instance.Ok?;
      return instance;
    }
  }
}

=== FILE: trait_copy.dfy ===
/** The `write` failure rule and the two copy loops that WriteTrait and
    WritableStreamTrait share word for word. The traits reach the handle
    directly, and the source only through `read()` and `eof()`, so the loops
    are stated on the two handles. */
module TraitCopy {
  import opened Wrappers
  import opened Php
  import opened RawHandle
  import opened CopySpec

  /** The traits' `write($data)` on a handle: fwrite's count, or
      "Unable to write data!" when fwrite returned false or wrote nothing of
      data that is not PHP-empty. */
  method WriteChecked(h: Handle, data: string) returns (r: Result<nat>)
    requires h.Live()
    modifies h
    ensures h.Live() && Step(r, h.State()) == TraitWrite(h.meta, old(h.State()), data)
  {
    var size := h.Fwrite(data);
    if size.None? || (size.value == 0 && !Falsy(data)) {
      return Err(WriteFailure("Unable to write data!"));
    }
    return Ok(size.value);
  }

  /** One pass, `$this->write($from->read($n))`: a failing fread raises
      before anything is written. */
  method ReadThenWriteChecked(sh: Handle, dh: Handle, n: int) returns (k: Result<nat>)
    requires sh.Live() && dh.Live() && sh != dh
    modifies sh, dh
    ensures sh.Live() && dh.Live()
    ensures var p := TraitPass(sh.meta, old(sh.State()), dh.meta, old(dh.State()), n);
      sh.State() == p.src && dh.State() == p.dst
      && (p.failure.None? ==> k == Ok(p.written)) && (p.failure.Some? ==> k == Err(p.failure.value))
  {
    ghost var sb, db := sh.State(), dh.State();
    TraitPassReadsThenWrites(sh.meta, sb, dh.meta, db, n);
    var data := sh.Fread(n);
    if data.None? {
      return Err(IoFailure("fread"));
    }
    k := WriteChecked(dh, data.value);
  }

  /** `copyAll`: CHUNK bytes a pass until the source reports its end,
      summing the counts; the first exception ends the copy. */
  method CopyAll(sh: Handle, dh: Handle) returns (r: Result<nat>)
    requires sh.Live() && dh.Live() && sh != dh
    modifies sh, dh
    ensures sh.Live() && dh.Live()
    ensures var o := CopyAllF(sh.meta, old(sh.State()), dh.meta, old(dh.State()), 0, 0, 0);
      sh.State() == o.src && dh.State() == o.dst && r == Returned(o)
  {
    ghost var o := CopyAllF(sh.meta, sh.State(), dh.meta, dh.State(), 0, 0, 0);
    var bytes := 0;
    ghost var requested: nat, passes: nat := 0, 0;
    while !sh.Feof()
      invariant sh.Live() && dh.Live()
      invariant AllYields(o, sh.meta, sh.State(), dh.meta, dh.State(), bytes, requested, passes)
      decreases |sh.data| - sh.pos, if sh.Feof() then 0 else 1
    {
      var k := ReadThenWriteChecked(sh, dh, CHUNK);
      requested, passes := requested + CHUNK, passes + 1;
      if k.Err? {
        return Err(k.error);
      }
      bytes := bytes + k.value;
    }
    return Ok(bytes);
  }

  /** `copyWithLimit`: ask for min(budget, CHUNK), lower the budget by that
      request before reading, until the source reports its end or the
      budget is spent. */
  method CopyWithLimit(sh: Handle, dh: Handle, maxLen: int) returns (r: Result<nat>)
    requires sh.Live() && dh.Live() && sh != dh
    modifies sh, dh
    ensures sh.Live() && dh.Live()
    ensures var o := CopyLimitF(sh.meta, old(sh.State()), dh.meta, old(dh.State()), maxLen, 0, 0, 0);
      sh.State() == o.src && dh.State() == o.dst && r == Returned(o)
  {
    ghost var o := CopyLimitF(sh.meta, sh.State(), dh.meta, dh.State(), maxLen, 0, 0, 0);
    var bytes := 0;
    ghost var requested: nat, passes: nat := 0, 0;
    var budget := maxLen;
    while !sh.Feof() && budget > 0
      invariant sh.Live() && dh.Live()
      invariant LimitYields(o, sh.meta, sh.State(), dh.meta, dh.State(), budget, bytes, requested, passes)
      decreases if budget > 0 then budget else 0
    {
      var len := LimitRequest(budget);
      budget := budget - len;
      var k := ReadThenWriteChecked(sh, dh, len);
      requested, passes := requested + len, passes + 1;
      if k.Err? {
        return Err(k.error);
      }
      bytes := bytes + k.value;
    }
    return Ok(bytes);
  }

  /** The traits' `writeFrom`: the sign of the budget picks the loop. */
  method CopyFrom(sh: Handle, dh: Handle, maxLen: int) returns (r: Result<nat>)
    requires sh.Live() && dh.Live() && sh != dh
    modifies sh, dh
    ensures sh.Live() && dh.Live()
    ensures var o := TraitCopyFrom(sh.meta, old(sh.State()), dh.meta, old(dh.State()), maxLen);
      sh.State() == o.src && dh.State() == o.dst && r == Returned(o)
  {
    if maxLen < 0 {
      r := CopyAll(sh, dh);
    } else {
      r := CopyWithLimit(sh, dh, maxLen);
    }
  }
}

=== FILE: wrappers.dfy ===
/** Option and Result, and the failures the stream layer raises. */
module Wrappers {

  datatype Option<+T> = None | Some(value: T)

  /** The exception classes the stream layer throws, with their messages. */
  datatype Error =
    | InvalidArgument(message: string)   // \InvalidArgumentException
    | Domain(message: string)            // \DomainException
    | Runtime(message: string)           // \RuntimeException
    | WriteFailure(message: string)      // Zeus\Stream\Write\Exception
    | IoFailure(call: string)            // a trait's exception for a failing primitive; PHP's message is not kept

  datatype Result<+T> = Ok(value: T) | Err(error: Error)
}

=== FILE: writable_stream_trait.dfy ===
/** WritableStreamTrait, the writing operations of the wrapper revision's
    WritableStream, SeekableStream and ReadWriteStream. Its code is
    WriteTrait's, over the wrapper's `resource`; the source of a copy is any
    wrapper with the readable stream trait, whose `read` and `eof` are taken
    to be fread and feof on its handle. */
module WritableStreamTrait {
  import opened Wrappers
  import opened Php
  import opened RawHandle
  import opened LineRules
  import opened CopySpec
  import opened Wrapper
  import TraitCopy

  /** `write($data)`: fwrite's count, or "Unable to write data!". */
  method Write(w: StreamWrapper, data: string) returns (r: Result<nat>)
    requires w.Valid() && w.resource != null && UsesWritableTrait(w.kind)
    modifies w.resource
    ensures w.Valid()
    ensures Step(r, w.resource.State()) == TraitWrite(w.resource.meta, old(w.resource.State()), data)
    ensures r.Ok? ==> w.resource.data == Overwrite(old(w.resource.data), WriteAt(w.resource.meta, old(w.resource.State())), data[..r.value])
  {
    r := TraitCopy.WriteChecked(w.resource, data);
  }

  /** `writeLine($line, $eol = null)`. */
  method WriteLine(w: StreamWrapper, line: string, e: Option<string>) returns (r: Result<nat>)
    requires w.Valid() && w.resource != null && UsesWritableTrait(w.kind)
    modifies w.resource
    ensures w.Valid()
    ensures var text := WithEol(line, Coalesce(e, w.eol));
      EndsWith(text, Coalesce(e, w.eol))
      && Step(r, w.resource.State()) == TraitWrite(w.resource.meta, old(w.resource.State()), text)
  {
    var eol := if e.None? then w.eol else e.value;
    WithEolSpec(line, eol);
    r := Write(w, WithEol(line, eol));
  }

  /** `writeFrom($stream, $maxLen = -1)`. */
  method WriteFrom(w: StreamWrapper, src: StreamWrapper, maxLen: int) returns (r: Result<nat>)
    requires w.Valid() && w.resource != null && UsesWritableTrait(w.kind)
    requires src.Valid() && src.resource != null && UsesReadableTrait(src.kind) && src.resource != w.resource
    modifies w.resource, src.resource
    ensures w.Valid() && src.Valid()
    ensures var o := TraitCopyFrom(src.resource.meta, old(src.resource.State()), w.resource.meta, old(w.resource.State()), maxLen);
      src.resource.State() == o.src && w.resource.State() == o.dst && r == Returned(o)
  {
    r := TraitCopy.CopyFrom(src.resource, w.resource, maxLen);
  }
}

=== FILE: write_trait.dfy ===
/** WriteTrait, the writing half of the `Stream` revision's Writable and
    Seekable classes. Like ReadTrait it goes straight to the handle without
    looking at the writable flag. */
module WriteTrait {
  import opened Wrappers
  import opened Php
  import opened RawHandle
  import opened LineRules
  import opened CopySpec
  import opened Streams
  import TraitCopy

  /** `write($data)`: fwrite's count, or "Unable to write data!" when fwrite
      failed or wrote nothing of data that is not PHP-empty. */
  method Write(s: Stream, data: string) returns (r: Result<nat>)
    requires s.Valid() && s.stream != null && UsesWriteTrait(s.kind)
    modifies s.stream
    ensures s.Valid()
    ensures Step(r, s.stream.State()) == TraitWrite(s.stream.meta, old(s.stream.State()), data)
    ensures r.Ok? ==> s.stream.data == Overwrite(old(s.stream.data), WriteAt(s.stream.meta, old(s.stream.State())), data[..r.value])
  {
    r := TraitCopy.WriteChecked(s.stream, data);
  }

  /** `writeLine($line, $eol = null)`: the line with the terminator (the
      given one, else the stream's) appended unless it already ends with it. */
  method WriteLine(s: Stream, line: string, e: Option<string>) returns (r: Result<nat>)
    requires s.Valid() && s.stream != null && UsesWriteTrait(s.kind)
    modifies s.stream
    ensures s.Valid()
    ensures var text := WithEol(line, Coalesce(e, s.eol));
      EndsWith(text, Coalesce(e, s.eol))
      && Step(r, s.stream.State()) == TraitWrite(s.stream.meta, old(s.stream.State()), text)
  {
    var eol := if e.None? then s.eol else e.value;
    WithEolSpec(line, eol);
    r := Write(s, WithEol(line, eol));
  }

  /** `writeFrom($stream, $maxLen = -1)`: everything left in the source when
      the budget is negative, else at most `maxLen` bytes, CHUNK at a time;
      the first exception ends the copy. */
  method WriteFrom(s: Stream, src: Stream, maxLen: int) returns (r: Result<nat>)
    requires s.Valid() && s.stream != null && UsesWriteTrait(s.kind)
    requires src.Valid() && src.stream != null && UsesReadTrait(src.kind) && src.stream != s.stream
    modifies s.stream, src.stream
    ensures s.Valid() && src.Valid()
    ensures var o := TraitCopyFrom(src.stream.meta, old(src.stream.State()), s.stream.meta, old(s.stream.State()), maxLen);
      src.stream.State() == o.src && s.stream.State() == o.dst && r == Returned(o)
  {
    r := TraitCopy.CopyFrom(src.stream, s.stream, maxLen);
  }
}
